=== FILE: README.md ===
# filescooper in Dafny

A model of the decision logic of `filescooper.py`, a multithreaded command-line
downloader. It takes a list of URLs and a set of filters: the allowed file
extensions, minimum and maximum body sizes, extra request headers, a retry
count and an optional random `User-Agent`. Each URL is fetched, checked
against the filters and saved under a name that does not collide with files
already in the output directory. A summary is printed at the end.

The model keeps everything that is deterministic once the outside world
becomes an input:

- what each attempt of `requests.get` ends in (an exception or a response
  with a status code and a body length);
- the index `random.choice` picks on each attempt;
- the set of names already in the output directory;
- the order in which the tasks reach the output directory, which decides
  who gets `a.js` and who gets `a_1.js`;
- the order in which the result loop reads the finished futures. The loop
  runs only after the pool has shut down, so `as_completed` yields the
  futures in an order unrelated to when they finished. That order is any
  permutation of the tasks.

What the program does with these inputs is modelled as pure functions over
immutable datatypes. That covers argument parsing, the filter order, the
retry and backoff loop, collision-free naming and the summary fold. One
module per concern:

| module | file | models |
|---|---|---|
| `Wrappers` | wrappers.dfy | `Option` |
| `Text` | text.dfy | `str.strip` (Python's whitespace set), ASCII `lower`/`upper`, `find`/`rfind`, `split(',')` |
| `Numerals` | numerals.dfy | `str(n)` and ASCII integer numerals, the part of what `float()` accepts that the model reads, with the whitespace `float()` skips |
| `Headers` | headers.dfy | `parse_headers` and the two user-agent pools |
| `Sizes` | sizes.dfy | `parse_size` |
| `FileNames` | filenames.dfy | `os.path.splitext`, `os.path.basename`, `allowed_extension`, the allowed-types set, `get_unique_filename` |
| `Download` | download.dfy | `download_file`: filter order, retry loop, backoff, headers sent |
| `Report` | report.dfy | the result loop of `main`, the buckets, the totals, `colorize_status` |
| `Run` | run.dfy | `main`: the order of its checks and early returns, the run of all tasks |

Two points about the order of the checks:

- The code checks the size bounds before the filename
  (filescooper.py:109-119). A response whose URL path has no filename is
  therefore skipped for that reason only when its size passes both bounds.
  The model follows the code (`Download.SizeChecksFirst`).
- The result loop in `main` crashes on the first skip or failure. The model
  keeps that loop as written and uses a corrected one; see "## Findings".

## Model

| member | source | states |
|---|---|---|
| Text.StripSpec | filescooper.py:23 | `strip()` leaves no whitespace at either end and removes only whitespace: the result sits inside the input with only whitespace around it |
| Text.StripTrimmed | filescooper.py:23 | `strip()` leaves text without surrounding whitespace unchanged |
| Text.StripPadded | filescooper.py:84 | `strip()` of text padded with whitespace on both sides is that text; whitespace alone strips to the empty string |
| Text.Find | filescooper.py:22 | `split(':', 1)` cuts at the first colon: the index found holds the character, and none comes before it; -1 exactly when it is absent |
| Text.RFind | filescooper.py:58 | the last occurrence of a character: none comes after it; -1 exactly when it is absent |
| Text.Split | filescooper.py:166 | `split(',')` yields at least one piece, no piece contains the separator, and joining the pieces gives the input back |
| Text.SplitJoin | filescooper.py:166 | splitting undoes joining, for any pieces without the separator |
| Numerals.Show | filescooper.py:62 | `str(k)` for the collision counter is a non-empty digit string without a leading zero |
| Numerals.ShowRoundTrip | filescooper.py:62 | the digits `str(k)` writes read back as `k` |
| Numerals.ShowInjective | filescooper.py:62 | different counters give different suffixes |
| Numerals.ParseShow | filescooper.py:95 | `float()` reads a rendered count back as that count |
| Numerals.ParseSigned | filescooper.py:95 | a sign followed by digits reads as the signed value |
| Numerals.ParseRejectsNonDigit | filescooper.py:95 | a non-digit after the first character makes the text no numeral |
| Numerals.ParseNumeralAccepts | filescooper.py:95 | text without surrounding whitespace is read exactly when it is a digit or sign followed only by digits, with at least one digit |
| Numerals.ParseSeparatorRejected | filescooper.py:95 | `float()` does not skip the separators U+001C to U+001F, which `strip()` treats as whitespace: a numeral followed by one is no number |
| Headers.SplitAtFirstColon | filescooper.py:22-23 | an item is cut at its first colon only: the key is the stripped text before it, the value the stripped rest, which may itself contain colons |
| Headers.ParseHeadersKeys | filescooper.py:18-24 | a key is in the map exactly when some item with a colon names it; items without a colon define nothing |
| Headers.ParseHeadersLastWins | filescooper.py:18-24 | the last item naming a key decides its value |
| Headers.ColonlessDropped | filescooper.py:21 | an item without a colon can be removed from anywhere in the list without changing the map |
| Headers.PoolSizes | filescooper.py:15-16 | the desktop pool holds five agents and the mobile pool four |
| Sizes.ParseSize | filescooper.py:81-83 | the result is no bound exactly when the argument is absent or empty; every other argument gives a count or an error |
| Sizes.ParseSizeValue | filescooper.py:84-95 | any integer numeral, signed or not and with leading zeros, reads as its value times the unit's multiplier when whitespace surrounds it, whitespace `float()` skips separates it from the unit, and `KB`, `MB` or `GB` is written in any mix of cases (`Kb`, `kB`) or left out |
| Sizes.ParseSizeRendered | filescooper.py:84-95 | a count followed by `KB`, `MB`, `GB` (either case) or nothing reads as the count times 1024, 1024², 1024³ or 1 |
| Sizes.ParseSizeAccepts | filescooper.py:84-95 | a non-empty argument is a size exactly when the text before its unit, without the whitespace `float()` skips, is a numeral, and otherwise no size |
| Sizes.ParseSizeRejectsNonDigit | filescooper.py:95 | any argument with a non-digit after the first character of its numeral, such as a word, is not a size: the model reads no size (for a word, `float()` raises) |
| Sizes.ParseSizeRejectsBareUnit | filescooper.py:84-95 | `KB`, `MB` or `GB` in any mix of cases, with any whitespace around it but no numeral in front, is not a size |
| Sizes.ParseSizeRejectsSeparator | filescooper.py:84-95 | a separator U+001C to U+001F between the numeral and its unit survives `strip()` and makes the argument no size |
| Sizes.ParseSizeRejectsBlank | filescooper.py:82-84 | every non-empty all-whitespace argument is refused rather than treated as absent: after stripping nothing is left to read |
| FileNames.ExtShape | filescooper.py:58 | `splitext` returns a root and an extension that glue back to the name; the extension is empty or one dot followed by text without dots or slashes |
| FileNames.SplitExtDotted | filescooper.py:58 | `stem.e` splits into `stem` and `.e` |
| FileNames.ExtNameAfterLastDot | filescooper.py:69 | the extension compared is the lower-cased text after the last dot, and empty when the name has no extension |
| FileNames.ExtensionMatch | filescooper.py:66-70 | outside the wildcard, `stem.e` is allowed exactly when `e`, lower-cased, is in the set |
| FileNames.NoExtensionMatch | filescooper.py:66-70 | a name without a dot is allowed exactly by the wildcard set or by a set holding `""` |
| FileNames.AllowedTypesWildcard | filescooper.py:166 | the wildcard applies exactly when every comma-separated piece strips and lower-cases to `*` |
| FileNames.AllowedTypesJoin | filescooper.py:166 | comma-joined lower-case, trimmed extensions give exactly that set |
| FileNames.DefaultTypes | filescooper.py:156-166 | the default `js` allows exactly `js` |
| FileNames.Basename | filescooper.py:116 | the basename is the longest slash-free suffix of the path |
| FileNames.BasenameEmpty | filescooper.py:116-119 | the basename is empty exactly for an empty path or one ending in `/` |
| FileNames.CandidateInjective | filescooper.py:62 | the loop never tries the same name twice |
| FileNames.CandidatesFill | filescooper.py:61-63 | `k` taken candidates need `k` existing files, so the loop stops |
| FileNames.FreeIndex | filescooper.py:61-63 | the loop stops at a free candidate, after every earlier one was taken, within `|existing|` steps |
| FileNames.UniqueFilename | filescooper.py:57-64 | the name returned is free, and is the name itself when that is free |
| FileNames.DotNamesSuffixed | filescooper.py:57-63 | `.` and `..` always exist, so a basename `.` or `..` is saved as `._1` or `.._1`, never as the directory or its parent |
| FileNames.UniqueFilenameIs | filescooper.py:57-64 | when exactly the first `m` candidates are taken the result is candidate `m` (`name`, `base_1+ext`, `base_2+ext`, …) |
| FileNames.SecondCopyGetsSuffix | filescooper.py:58-63 | in a directory holding neither `stem.e` nor `stem_1.e`, `stem.e` is saved as itself, and once it exists the next copy is `stem_1.e` |
| Download.Classify | filescooper.py:108-131 | a saved response keeps its status and length and gets a name not yet in the directory; the URL is echoed; a response never fails |
| Download.ClassifySaves | filescooper.py:108-125 | a response is saved exactly when it passes both size bounds, has a filename and an allowed extension; it is saved under the name `get_unique_filename` picks for its basename, which is the basename itself when that is free |
| Download.SizeChecksFirst | filescooper.py:109-112 | below a non-zero minimum the skip reason is "too small", whatever the path; otherwise above a non-zero maximum it is "too large" |
| Download.SizeFilter | filescooper.py:109-112 | a size skip happens exactly below a non-zero minimum or above a non-zero maximum; a length equal to a bound passes it |
| Download.ZeroBoundIsNoBound | filescooper.py:109-112 | a bound of zero filters nothing, like an absent one |
| Download.NoFilenameSkipped | filescooper.py:115-119 | within the bounds, a path that is empty or ends in `/` is skipped for having no filename |
| Download.WrongTypeSkipped | filescooper.py:121-122 | within the bounds, a filename whose extension is not allowed is skipped for its type |
| Download.Attempts | filescooper.py:98-136 | the loop makes at most `retries` attempts with one sleep between two of them; every attempt before the last one made raised; it ends on a response or on the last allowed attempt's exception |
| Download.AttemptsBackoff | filescooper.py:133-134 | the sleep after failed attempt `a` is `2^a` seconds |
| Download.AttemptsHeaders | filescooper.py:100-105 | every attempt sends the headers with only `User-Agent` possibly set, to a member of the pool |
| Download.DownloadFile | filescooper.py:97-136 | fewer than one retry makes no attempt; the URL is echoed; a success is saved under the name `get_unique_filename` picks for the basename, which is free; a failure names `retries` attempts after exactly that many |
| Download.DownloadHeaders | filescooper.py:100-105 | a task's headers differ from the parsed ones only in `User-Agent` |
| Download.BackoffTotal | filescooper.py:133-134 | `n` backoffs add up to `2^(n+1) - 2` seconds |
| Download.LoopStopsAt | filescooper.py:98-136 | after `k` exceptions the loop stops on a response or on the last allowed attempt, having slept `2^1 … 2^k` |
| Download.AllAttemptsFail | filescooper.py:98-136 | when every attempt raises there are exactly `retries` attempts, sleeps `2^1 … 2^(retries-1)` and none after the last one, totalling `2^retries - 2`; the failure names the retry count and the last error |
| Download.FirstResponseDecides | filescooper.py:105-131 | the first response ends the loop whatever its status code, and the filters decide the outcome |
| Report.FoldIsFilter | filescooper.py:207-216 | the result loop, started from any summary, appends exactly the filtered outcomes to each bucket and adds exactly the qualifying counts and sizes |
| Report.AggregateIsFilter | filescooper.py:207-216 | the buckets are the three prefix-filtered lists in the order the results are read; count and bytes cover only successes with status 200 and a non-empty body |
| Report.FiledMembers | filescooper.py:214-216 | a bucket holds exactly the outcomes of its kind |
| Report.FiledAppend | filescooper.py:214-216 | filing keeps the order the results are read in |
| Report.BucketsPartition | filescooper.py:214-216 | every outcome except a `NoAttempt` lands in exactly one bucket: the three bucket sizes and the `NoAttempt` count add up to the number of outcomes |
| Report.TotalsIgnoreOrder | filescooper.py:207-213 | the count and the byte total do not depend on the order of the outcomes |
| Report.PickPermutes | filescooper.py:198-209 | reading the finished futures in any order reports every task's outcome exactly as often as it occurred |
| Report.ReadOrderTotals | filescooper.py:207-213 | the totals over the outcomes in the order they are read equal those in the order the tasks ran |
| Report.BytesCoverCount | filescooper.py:211-213 | the byte total is at least the count, and the count is non-zero exactly when some outcome qualifies |
| Report.TotalLineShown | filescooper.py:242-243 | the total line is printed exactly when some download qualifies |
| Report.AsWrittenCrashes | filescooper.py:207-208 | as written, the loop raises at the first outcome that is not a success |
| Report.AsWrittenAgrees | filescooper.py:207-216 | when every task succeeds, the loop as written and the corrected one agree |
| Report.OneSkipShowsCrash | filescooper.py:207-209 | a single skipped URL crashes the loop as written; the corrected loop files it as a skip |
| Report.MixedRun | filescooper.py:207-216 | one success, one failure and one skip give one entry per bucket, a count of 1 and the success's bytes |
| Report.StatusBand | filescooper.py:49-55 | the colour is green exactly for the 2xx codes and yellow exactly for the 3xx codes; every other code is red |
| Run.ExecuteSees | filescooper.py:192-196 | one outcome per task, in the order the tasks reach the directory; each is what `download_file` gives that task against the directory as the earlier tasks left it: the names that were there plus every name an earlier task saved |
| Run.ExecuteFresh | filescooper.py:125 | no two tasks save under the same name, and none over a pre-existing file |
| Run.SameFileTwice | filescooper.py:125 | two tasks for `stem.e` over a directory without `stem.e` and `stem_1.e`: the first success keeps the name and the second becomes `stem_1.e` |
| Run.Main | filescooper.py:162-209 | both user-agent flags abort before the sizes are parsed; a bad size stops the run; an empty URL list returns; fewer than one worker raises; otherwise every URL gets one outcome, and the report lists those outcomes in the read order |
| Run.CompletedTotals | filescooper.py:192-216 | a completed run reports each outcome as often as it occurred, whatever the read order; the buckets are filtered from the report; the totals are those of the qualifying outcomes, at most one per task; all saved names are fresh |
| Run.RunAgents | filescooper.py:194 | the desktop flag sends a desktop agent on every attempt, the mobile flag alone a mobile agent, and neither flag the parsed headers unchanged; no other header changes |

## Left out

- Network I/O: `requests.get`, the proxy, `verify=False` and the 15-second timeout. Each attempt's result is an input (`Reply`).
- Threads: `ThreadPoolExecutor`, `as_completed` and `tqdm`. The tasks run one after another, in the order they reach the output directory. The order in which the finished futures are read is a separate input, any permutation of the tasks. Two workers that check the directory at the same moment could both pick the same name; that race is not modelled.
- The filesystem: `os.makedirs`, the write, `os.path.exists`, `setup_log_file` and the log file. The directory is a set of names that always holds `.` and `..`. An error while writing is an exception of that attempt.
- Run.ExecuteSees: a write that fails after `open(filepath, 'wb')` leaves a file behind, so the next attempt of the same task picks the following candidate name; the model keeps the set of names fixed across the attempts of one task.
- `time.sleep` and `random.choice`. The sleeps are an output list, and the pool index of each attempt is an input.
- `format_size` and all message text, including the ANSI strings of `Color`. Messages are replaced by tagged outcomes.
- `argparse`, `read_urls_from_file` and `urlparse`. The URL's path is an input.
- Sizes.ParseSize: reads ASCII integer numerals only. `float()` also accepts fractions, exponents, `inf`, `nan`, `_` separators and integer numerals written in non-ASCII decimal digits (such as `١٠KB`), which the model reports as not a size. A numeral beyond the float range makes `int(float(...) * multiplier)` raise `OverflowError`; the model returns the exact count instead. The rounding of `int(float(...))` above 2^53 is not modelled.
- Text.Lower: ASCII case mapping only; Python's `lower()` and `upper()` also map other scripts.
- Download.AttemptsHeaders: the random pick is any natural number taken modulo the pool size, not a uniform choice.
- Download.DownloadFile: a retry count below 1 yields an explicit `NoAttempt` outcome. The program returns `None` and the result loop would then raise.
- Run.ExecuteSees: the tasks are sequential (see threads above).

## Findings

| source | as written | input that shows it | evidently intended | confidence | as-written member | corrected member |
|---|---|---|---|---|---|---|
| filescooper.py:207-209 | every result is unpacked as `(message, status, size)`, but skips and failures return a bare string (lines 110, 112, 119, 122, 136) | one URL whose path ends in `/`: `download_file` returns the skip message, and unpacking it raises `ValueError` before any summary | skips and failures go to their buckets and add nothing to the totals | high; not executed | Report.AsWrittenCrashes | Report.AggregateIsFilter |

=== FILE: download.dfy ===
/** `download_file` as a pure function. The network, the clock, the random
    user-agent choice and the output directory are inputs: each attempt's
    result (`Reply`), the pool index each attempt picks, and the set of
    names already in the directory. The sleeps the retry loop would take
    and the header maps it would send are outputs. */
module Download {
  import opened Wrappers
  import opened Headers
  import opened FileNames

  /** Whether each attempt draws its `User-Agent` at random, and from which
      pool: the desktop or the mobile list. */
  datatype AgentMode = NoAgent | RandomAgent(pool: seq<string>)

  /** The per-run settings every task shares. A size bound of `None` or
      `Some(0)` does not filter (Python tests the bound for truthiness). */
  datatype Policy = Policy(
    headers: HeaderMap,
    allowed: set<string>,
    minSize: Option<int>,
    maxSize: Option<int>,
    retries: int,
    agent: AgentMode)

  /** One URL: its text, echoed in every outcome, and the path component
      `urlparse` would give. */
  datatype Task = Task(url: string, path: string)

  /** How one attempt ends: it raises (transport or filesystem error), or a
      response arrives with some status code and body length. */
  datatype Reply = Exc(msg: string) | Resp(status: int, bodyLen: nat)

  datatype SkipReason = TooSmall(min: int) | TooLarge(max: int) | NoFilename | NotAllowedType

  /** The tagged result of one task. `NoAttempt` is what a retry count
      below 1 yields: the loop never runs and the function returns `None`. */
  datatype Outcome =
    | Success(filename: string, status: int, size: nat, url: string)
    | Skipped(reason: SkipReason, url: string)
    | Failed(url: string, attempts: int, error: string)
    | NoAttempt(url: string)

  /** An outcome with what it took to reach it: the backoff sleeps, in
      seconds, and the headers sent on each attempt, in order. */
  datatype Trace = Trace(outcome: Outcome, sleeps: seq<nat>, sent: seq<HeaderMap>)

  function Pow2(n: nat): nat {
    if n == 0 then 1 else 2 * Pow2(n - 1)
  }

  /** A bound filters only when it is set and non-zero. */
  predicate Active(bound: Option<int>) {
    bound.Some? && bound.value != 0
  }

  predicate TooSmallFor(p: Policy, len: nat) {
    Active(p.minSize) && len < p.minSize.value
  }

  predicate TooLargeFor(p: Policy, len: nat) {
    Active(p.maxSize) && len > p.maxSize.value
  }

  /** What happens to a received response: the size bounds, the filename
      and the extension are checked in that order and the first failure is
      the skip reason; a response passing all four is saved under a name
      not yet in the directory. The status code plays no part. */
  function Classify(p: Policy, t: Task, existing: set<string>, status: int, len: nat): (r: Outcome)
    ensures r.url == t.url
    ensures r.Success? ==> r.filename !in existing && r.status == status && r.size == len
    ensures !r.Failed? && !r.NoAttempt?
  {
    if TooSmallFor(p, len) then Skipped(TooSmall(p.minSize.value), t.url)
    else if TooLargeFor(p, len) then Skipped(TooLarge(p.maxSize.value), t.url)
    else
      var name := Basename(t.path);
      if name == [] then Skipped(NoFilename, t.url)
      else if !AllowedExtension(name, p.allowed) then Skipped(NotAllowedType, t.url)
      else Success(UniqueFilename(existing, name), status, len, t.url)
  }

  /** The headers sent on an attempt whose random choice is `pick`: the
      task's own copy, with only `User-Agent` replaced when a mode is set.
      `random.choice` returns some pool member; `pick % |pool|` ranges over
      all of them. */
  function Sent(p: Policy, pick: nat): HeaderMap
    requires HasPool(p)
  {
    match p.agent
    case NoAgent => p.headers
    case RandomAgent(pool) => p.headers[UserAgent := pool[pick % |pool|]]
  }

  /** A random mode always comes with a pool to choose from. */
  predicate HasPool(p: Policy) {
    p.agent.RandomAgent? ==> |p.agent.pool| > 0
  }

  /** `m` is `p.headers` except that, when a mode is set, `User-Agent` holds
      a member of that mode's pool. */
  ghost predicate AgentHeaders(p: Policy, m: HeaderMap) {
    && (forall k :: k != UserAgent ==> (k in m <==> k in p.headers))
    && (forall k :: k in m && k != UserAgent ==> m[k] == p.headers[k])
    && (p.agent == NoAgent ==> m == p.headers)
    && (p.agent.RandomAgent? ==> UserAgent in m && m[UserAgent] in p.agent.pool)
  }

  /** Where the retry loop stops: the reply that ended it (a response, or
      the exception of the last attempt), the sleeps taken on the way and
      the headers sent on each attempt. */
  datatype LoopEnd = LoopEnd(last: Reply, sleeps: seq<nat>, sent: seq<HeaderMap>)

  /** The retry loop from attempt `a` (1-based) on. An exception before the
      last attempt sleeps `2^a` seconds and tries again; an exception on the
      last attempt, or any response, ends the loop. */
  function Attempts(p: Policy, script: seq<Reply>, picks: seq<nat>, a: nat): (r: LoopEnd)
    requires 1 <= a <= p.retries <= |script| && p.retries <= |picks| && HasPool(p)
    ensures |r.sent| == |r.sleeps| + 1 && a - 1 + |r.sent| <= p.retries
    ensures r.last == script[a - 2 + |r.sent|]
    ensures r.last.Exc? ==> a - 1 + |r.sent| == p.retries
    ensures forall i :: a - 1 <= i < a - 1 + |r.sleeps| ==> script[i].Exc?
    decreases p.retries - a
  {
    var sent := Sent(p, picks[a - 1]);
    if script[a - 1].Exc? && a < p.retries then
      var rest := Attempts(p, script, picks, a + 1);
      LoopEnd(rest.last, [Pow2(a)] + rest.sleeps, [sent] + rest.sent)
    else LoopEnd(script[a - 1], [], [sent])
  }

  /** The loop sleeps `2^a, 2^(a+1), ...`, one sleep between two attempts. */
  lemma {:induction false} AttemptsBackoff(p: Policy, script: seq<Reply>, picks: seq<nat>, a: nat)
    requires 1 <= a <= p.retries <= |script| && p.retries <= |picks| && HasPool(p)
    ensures forall i :: 0 <= i < |Attempts(p, script, picks, a).sleeps| ==> Attempts(p, script, picks, a).sleeps[i] == Pow2(a + i)
    decreases p.retries - a
  {
    if script[a - 1].Exc? && a < p.retries {
      var r, rest := Attempts(p, script, picks, a), Attempts(p, script, picks, a + 1);
      AttemptsBackoff(p, script, picks, a + 1);
      assert r.sleeps == [Pow2(a)] + rest.sleeps;
      forall i | 0 < i < |r.sleeps|
        ensures r.sleeps[i] == Pow2(a + i)
      {
        assert r.sleeps[i] == rest.sleeps[i - 1];
      }
    }
  }

  lemma SentAgentHeaders(p: Policy, pick: nat)
    requires HasPool(p)
    ensures AgentHeaders(p, Sent(p, pick))
  {
  }

  /** Each attempt sends the task's headers with at most `User-Agent` changed. */
  lemma {:induction false} AttemptsHeaders(p: Policy, script: seq<Reply>, picks: seq<nat>, a: nat)
    requires 1 <= a <= p.retries <= |script| && p.retries <= |picks| && HasPool(p)
    ensures forall i :: 0 <= i < |Attempts(p, script, picks, a).sent| ==> AgentHeaders(p, Attempts(p, script, picks, a).sent[i])
    decreases p.retries - a
  {
    SentAgentHeaders(p, picks[a - 1]);
    if script[a - 1].Exc? && a < p.retries {
      var r, rest := Attempts(p, script, picks, a), Attempts(p, script, picks, a + 1);
      AttemptsHeaders(p, script, picks, a + 1);
      assert r.sent == [Sent(p, picks[a - 1])] + rest.sent;
      forall i | 0 < i < |r.sent|
        ensures AgentHeaders(p, r.sent[i])
      {
        assert r.sent[i] == rest.sent[i - 1];
        assert AgentHeaders(p, rest.sent[i - 1]);
      }
    }
  }

  /** `download_file`: a retry count below 1 makes no attempt at all; a
      response is classified; an exception on the last attempt is a
      failure naming the retry count and that exception. */
  function DownloadFile(p: Policy, t: Task, existing: set<string>, script: seq<Reply>, picks: seq<nat>): (r: Trace)
    requires p.retries <= |script| && p.retries <= |picks| && HasPool(p)
    ensures r.outcome.url == t.url
    ensures r.outcome.NoAttempt? <==> p.retries < 1
    ensures |r.sent| <= if p.retries < 1 then 0 else p.retries
    ensures r.outcome.Success? ==> r.outcome.filename !in existing
    ensures r.outcome.Success? ==> r.outcome.filename == UniqueFilename(existing, Basename(t.path))
    ensures r.outcome.Failed? ==> |r.sent| == p.retries == r.outcome.attempts
  {
    if p.retries < 1 then Trace(NoAttempt(t.url), [], [])
    else
      var e := Attempts(p, script, picks, 1);
      match e.last
      case Resp(status, len) => Trace(Classify(p, t, existing, status, len), e.sleeps, e.sent)
      case Exc(msg) => Trace(Failed(t.url, p.retries, msg), e.sleeps, e.sent)
  }

  /** Whatever the replies, every header map sent is the task's own with
      only `User-Agent` possibly replaced by a member of the chosen pool. */
  lemma DownloadHeaders(p: Policy, t: Task, existing: set<string>, script: seq<Reply>, picks: seq<nat>)
    requires p.retries <= |script| && p.retries <= |picks| && HasPool(p)
    ensures var r := DownloadFile(p, t, existing, script, picks);
      forall i :: 0 <= i < |r.sent| ==> AgentHeaders(p, r.sent[i])
  {
    if p.retries >= 1 {
      AttemptsHeaders(p, script, picks, 1);
      assert DownloadFile(p, t, existing, script, picks).sent == Attempts(p, script, picks, 1).sent;
    }
  }

  /** The backoff schedule before attempt `n + 1`: `2^1, 2^2, ..., 2^n`. */
  function Backoff(n: nat): (s: seq<nat>)
    ensures |s| == n
  {
    seq(n, i requires 0 <= i < n => Pow2(i + 1))
  }

  function Sum(s: seq<nat>): nat {
    if s == [] then 0 else Sum(s[..|s| - 1]) + s[|s| - 1]
  }

  /** The schedule sums to `2^(n+1) - 2` seconds. */
  lemma {:induction false} BackoffTotal(n: nat)
    ensures Sum(Backoff(n)) == Pow2(n + 1) - 2
  {
    if n > 0 {
      assert Backoff(n)[..n - 1] == Backoff(n - 1);
      BackoffTotal(n - 1);
    }
  }

  /** The loop makes `k + 1` attempts when the first `k` raise and the next
      one is the last allowed or gets a response, and sleeps the `k`
      backoffs in between. */
  lemma LoopStopsAt(p: Policy, script: seq<Reply>, picks: seq<nat>, k: nat)
    requires k < p.retries <= |script| && p.retries <= |picks| && HasPool(p)
    requires script[k].Resp? || k == p.retries - 1
    requires forall i :: 0 <= i < k ==> script[i].Exc?
    ensures var e := Attempts(p, script, picks, 1);
      e.last == script[k] && |e.sent| == k + 1 && e.sleeps == Backoff(k)
  {
    AttemptsBackoff(p, script, picks, 1);
  }

  /** Every attempt raises: exactly `retries` attempts, sleeps of
      `2^1 .. 2^(retries-1)` with none after the last attempt, and a failure
      carrying the last error and the retry count. */
  lemma AllAttemptsFail(p: Policy, t: Task, existing: set<string>, script: seq<Reply>, picks: seq<nat>)
    requires 1 <= p.retries <= |script| && p.retries <= |picks| && HasPool(p)
    requires forall i :: 0 <= i < p.retries ==> script[i].Exc?
    ensures var r := DownloadFile(p, t, existing, script, picks);
      && r.outcome == Failed(t.url, p.retries, script[p.retries - 1].msg)
      && |r.sent| == p.retries
      && r.sleeps == Backoff(p.retries - 1)
      && Sum(r.sleeps) == Pow2(p.retries) - 2
  {
    LoopStopsAt(p, script, picks, p.retries - 1);
    BackoffTotal(p.retries - 1);
  }

  /** The first response decides the outcome, whatever its status code: no
      further attempt is made, and the sleeps are the `k` backoffs of the
      `k` exceptions before it. */
  lemma FirstResponseDecides(p: Policy, t: Task, existing: set<string>, script: seq<Reply>, picks: seq<nat>, k: nat)
    requires k < p.retries <= |script| && p.retries <= |picks| && HasPool(p)
    requires script[k].Resp? && forall i :: 0 <= i < k ==> script[i].Exc?
    ensures var r := DownloadFile(p, t, existing, script, picks);
      && r.outcome == Classify(p, t, existing, script[k].status, script[k].bodyLen)
      && |r.sent| == k + 1
      && r.sleeps == Backoff(k)
  {
    LoopStopsAt(p, script, picks, k);
  }

  /** A response is saved exactly when it passes all four checks, under the
      name `get_unique_filename` picks for its basename: its own name when
      that is still free. */
  lemma ClassifySaves(p: Policy, t: Task, existing: set<string>, status: int, len: nat)
    ensures Classify(p, t, existing, status, len).Success? <==>
      !TooSmallFor(p, len) && !TooLargeFor(p, len) && Basename(t.path) != [] && AllowedExtension(Basename(t.path), p.allowed)
    ensures Classify(p, t, existing, status, len).Success? ==>
      Classify(p, t, existing, status, len).filename == UniqueFilename(existing, Basename(t.path))
    ensures Classify(p, t, existing, status, len).Success? && Basename(t.path) !in existing ==>
      Classify(p, t, existing, status, len).filename == Basename(t.path)
  {
  }

  /** The size checks come first: a body outside the bounds is skipped for
      its size whatever its path, the minimum being checked before the
      maximum. */
  lemma SizeChecksFirst(p: Policy, t: Task, existing: set<string>, status: int, len: nat)
    ensures TooSmallFor(p, len) ==> Classify(p, t, existing, status, len) == Skipped(TooSmall(p.minSize.value), t.url)
    ensures !TooSmallFor(p, len) && TooLargeFor(p, len) ==> Classify(p, t, existing, status, len) == Skipped(TooLarge(p.maxSize.value), t.url)
  {
  }

  /** The size bounds: a body is skipped for its size exactly when it is
      below a non-zero minimum or above a non-zero maximum. A body exactly
      as long as a bound passes that bound. */
  lemma SizeFilter(p: Policy, t: Task, existing: set<string>, status: int, len: nat)
    ensures var r := Classify(p, t, existing, status, len);
      (r.Skipped? && (r.reason.TooSmall? || r.reason.TooLarge?)) <==>
        (Active(p.minSize) && len < p.minSize.value) || (Active(p.maxSize) && len > p.maxSize.value)
    ensures p.minSize == Some(len as int) ==> Classify(p, t, existing, status, len) != Skipped(TooSmall(len), t.url)
    ensures p.maxSize == Some(len as int) ==> Classify(p, t, existing, status, len) != Skipped(TooLarge(len), t.url)
  {
  }

  /** A zero bound is no bound. */
  lemma ZeroBoundIsNoBound(p: Policy, t: Task, existing: set<string>, status: int, len: nat)
    ensures Classify(p.(minSize := Some(0)), t, existing, status, len) == Classify(p.(minSize := None), t, existing, status, len)
    ensures Classify(p.(maxSize := Some(0)), t, existing, status, len) == Classify(p.(maxSize := None), t, existing, status, len)
  {
  }

  /** Within the size bounds, a path that is empty or ends in a slash has no
      filename and is skipped for that. */
  lemma NoFilenameSkipped(p: Policy, t: Task, existing: set<string>, status: int, len: nat)
    requires t.path == [] || t.path[|t.path| - 1] == '/'
    requires !TooSmallFor(p, len) && !TooLargeFor(p, len)
    ensures Classify(p, t, existing, status, len) == Skipped(NoFilename, t.url)
  {
    BasenameEmpty(t.path);
  }

  /** Within the size bounds, a filename whose extension is not allowed is
      skipped for its type. */
  lemma WrongTypeSkipped(p: Policy, t: Task, existing: set<string>, status: int, len: nat)
    requires !TooSmallFor(p, len) && !TooLargeFor(p, len)
    requires Basename(t.path) != [] && !AllowedExtension(Basename(t.path), p.allowed)
    ensures Classify(p, t, existing, status, len) == Skipped(NotAllowedType, t.url)
  {
  }
}

=== FILE: filenames.dfy ===
/** The filename policy: the basename of a URL path, `os.path.splitext`,
    the `--types` allow-list with its `*` wildcard, and the search for a
    name not yet present in the output directory. */
module FileNames {
  import opened Text
  import opened Numerals

  /** Some character of `s` is not a dot. */
  predicate HasNonDot(s: string) {
    exists k :: 0 <= k < |s| && s[k] != '.'
  }

  /** Where `os.path.splitext` (POSIX) cuts `p`: at the last dot after the
      last slash, provided a non-dot character precedes that dot within the
      final component (leading dots never start an extension); otherwise at
      the end. */
  function ExtStart(p: string): (i: nat)
    ensures i <= |p|
  {
    var sep := RFind(p, '/');
    var dot := RFind(p, '.');
    if dot > sep && HasNonDot(p[sep + 1..dot]) then dot else |p|
  }

  /** `os.path.splitext`: the root and the extension, which glue back to `p`. */
  function SplitExt(p: string): (string, string) {
    var i := ExtStart(p);
    (p[..i], p[i..])
  }

  /** An extension is empty or one dot followed by dot-free, slash-free text. */
  lemma ExtShape(p: string)
    ensures SplitExt(p).0 + SplitExt(p).1 == p
    ensures var ext := SplitExt(p).1;
      ext == [] || (ext[0] == '.' && '.' !in ext[1..] && '/' !in ext)
  {
    SplitExtGlues(p);
    var sep := RFind(p, '/');
    var dot := RFind(p, '.');
    if ExtStart(p) < |p| {
      assert p[dot..][1..] == p[dot + 1..];
      assert p[dot + 1..] == p[sep + 1..][dot - sep..];
    }
  }

  lemma SplitExtGlues(p: string)
    ensures SplitExt(p).0 + SplitExt(p).1 == p
  {
    var i := ExtStart(p);
    assert p == p[..i] + p[i..];
  }

  /** `str.lstrip(c)`. */
  function LStripChar(s: string, c: char): string {
    if |s| > 0 && s[0] == c then LStripChar(s[1..], c) else s
  }

  /** `os.path.splitext(name)[1].lower().lstrip('.')`. */
  function ExtName(name: string): string {
    LStripChar(Lower(SplitExt(name).1), '.')
  }

  /** `allowed_extension`: true whenever the allowed set is exactly the
      wildcard `{"*"}`; otherwise the extension must be a member. */
  predicate AllowedExtension(name: string, allowed: set<string>) {
    allowed == {"*"} || ExtName(name) in allowed
  }

  /** A file name has an extension when its last dot has a non-dot
      character somewhere before it. */
  predicate HasExtension(name: string) {
    var d := RFind(name, '.');
    d > 0 && HasNonDot(name[..d])
  }

  /** The extension of a slash-free name is the lower-cased text after its
      last dot, or empty when the name has no extension (no dot, or only
      leading dots). */
  lemma ExtNameAfterLastDot(name: string)
    requires '/' !in name
    ensures HasExtension(name) ==> ExtName(name) == Lower(name[RFind(name, '.') + 1..])
    ensures !HasExtension(name) ==> ExtName(name) == ""
  {
    if HasExtension(name) {
      ExtNameWithDot(name);
    } else {
      var d := RFind(name, '.');
      assert RFind(name, '/') == -1;
      if d >= 0 {
        assert name[0..d] == name[..d];
      }
      assert ExtStart(name) == |name|;
    }
  }

  lemma ExtNameWithDot(name: string)
    requires '/' !in name && HasExtension(name)
    ensures ExtName(name) == Lower(name[RFind(name, '.') + 1..])
  {
    var rest := name[RFind(name, '.') + 1..];
    ExtIsLastDot(name);
    LStripOneDot(rest);
  }

  /** In a slash-free name with an extension, the extension is the last dot
      and the dot-free text after it. */
  lemma ExtIsLastDot(name: string)
    requires '/' !in name && HasExtension(name)
    ensures SplitExt(name).1 == ['.'] + name[RFind(name, '.') + 1..]
    ensures '.' !in name[RFind(name, '.') + 1..]
  {
    var d := RFind(name, '.');
    ExtStartAtLastDot(name);
    assert 0 <= d && name[d] == '.';
    assert SplitExt(name).1 == name[d..];
    DotFront(name, d);
  }

  lemma DotFront(s: string, d: nat)
    requires d < |s| && s[d] == '.'
    ensures s[d..] == ['.'] + s[d + 1..]
  {
  }

  /** In a slash-free name with an extension, the cut is at the last dot. */
  lemma ExtStartAtLastDot(name: string)
    requires '/' !in name && HasExtension(name)
    ensures ExtStart(name) == RFind(name, '.')
  {
    var d := RFind(name, '.');
    assert RFind(name, '/') == -1;
    assert name[0..d] == name[..d];
  }

  /** Lower-casing a dotted extension and dropping its dot. */
  lemma LStripOneDot(t: string)
    requires '.' !in t
    ensures LStripChar(Lower(['.'] + t), '.') == Lower(t)
  {
    var low := Lower(t);
    assert Lower(['.'] + t) == ['.'] + low;
    assert forall k :: 0 <= k < |t| ==> low[k] != '.';
    assert (['.'] + low)[1..] == low;
  }

  /** Extension matching is case-insensitive and looks only at the text
      after the last dot: `stem.e` is allowed by a non-wildcard set exactly
      when the lower-cased `e` is in it. */
  lemma ExtensionMatch(stem: string, e: string, allowed: set<string>)
    requires HasNonDot(stem) && '/' !in stem && '/' !in e && '.' !in e
    requires allowed != {"*"}
    ensures AllowedExtension(stem + "." + e, allowed) <==> Lower(e) in allowed
  {
    var name := stem + "." + e;
    assert name[|stem|] == '.';
    assert name[|stem| + 1..] == e;
    assert RFind(name, '.') == |stem| by {
      RFindAt(name, '.', |stem|);
    }
    assert name[..|stem|] == stem;
    assert '/' !in name;
    ExtNameAfterLastDot(name);
  }

  /** A name without any dot is allowed only by the wildcard or by an
      allow-list that holds the empty extension. */
  lemma NoExtensionMatch(name: string, allowed: set<string>)
    requires '/' !in name && '.' !in name
    ensures AllowedExtension(name, allowed) <==> allowed == {"*"} || "" in allowed
  {
    ExtNameAfterLastDot(name);
  }

  /** The last occurrence of `c` is the one with none after it. */
  lemma {:induction false} RFindAt(s: string, c: char, i: nat)
    requires i < |s| && s[i] == c && c !in s[i + 1..]
    ensures RFind(s, c) == i
    decreases |s|
  {
    if i < |s| - 1 {
      assert s[i + 1..][|s| - i - 2] == s[|s| - 1];
      var p := s[..|s| - 1];
      assert p[i + 1..] == s[i + 1..][..|s| - i - 2];
      RFindAt(p, c, i);
    }
  }

  /** The set `{t.strip().lower() for t in types.split(',')}`. */
  function AllowedTypes(types: string): set<string> {
    set t | t in Split(types, ',') :: Lower(Strip(t))
  }

  /** Every piece strips and lower-cases to `*`. */
  predicate AllStars(pieces: seq<string>) {
    forall k :: 0 <= k < |pieces| ==> Lower(Strip(pieces[k])) == "*"
  }

  /** The allow-list is the exact wildcard only when every comma-separated
      piece strips to `*`; `*,js` is a two-member list, not a wildcard. */
  lemma AllowedTypesWildcard(types: string)
    ensures AllowedTypes(types) == {"*"} <==> AllStars(Split(types, ','))
  {
    var pieces := Split(types, ',');
    var a := AllowedTypes(types);
    forall k | 0 <= k < |pieces|
      ensures Lower(Strip(pieces[k])) in a
    {
      assert pieces[k] in pieces;
    }
    if AllStars(pieces) {
      forall x | x in a
        ensures x == "*"
      {
        var t :| t in pieces && Lower(Strip(t)) == x;
        var k :| 0 <= k < |pieces| && pieces[k] == t;
      }
      assert "*" in a by {
        assert Lower(Strip(pieces[0])) in a;
      }
      assert a == {"*"};
    } else {
      var k :| 0 <= k < |pieces| && Lower(Strip(pieces[k])) != "*";
      var x := Lower(Strip(pieces[k]));
      assert x in a && x !in {"*"};
      assert a != {"*"};
    }
  }

  /** Lower-case, trimmed, comma-free extensions joined with commas come
      back as exactly the set of those extensions. */
  lemma AllowedTypesJoin(names: seq<string>)
    requires |names| >= 1
    requires forall k :: 0 <= k < |names| ==> ',' !in names[k] && Trimmed(names[k]) && Lower(names[k]) == names[k]
    ensures AllowedTypes(Join(names, ',')) == set k | 0 <= k < |names| :: names[k]
  {
    SplitJoin(names, ',');
    forall k | 0 <= k < |names|
      ensures Lower(Strip(names[k])) == names[k]
    {
      StripTrimmed(names[k]);
    }
  }

  /** The default `--types js` allows exactly `js`. */
  lemma DefaultTypes()
    ensures AllowedTypes("js") == {"js"}
  {
    var names := ["js"];
    assert Join(names, ',') == "js";
    AllowedTypesJoin(names);
    assert (set k | 0 <= k < |names| :: names[k]) == {"js"} by {
      assert names[0] == "js";
    }
  }

  /** `os.path.basename`: the longest suffix of `path` without a slash. */
  function Basename(path: string): (r: string)
    ensures '/' !in r
    ensures |r| <= |path| && path[|path| - |r|..] == r
    ensures |r| == |path| || path[|path| - |r| - 1] == '/'
  {
    path[RFind(path, '/') + 1..]
  }

  /** The basename is empty exactly for an empty path or one ending in a slash. */
  lemma BasenameEmpty(path: string)
    ensures Basename(path) == [] <==> path == [] || path[|path| - 1] == '/'
  {
  }

  /** The `k`-th name `get_unique_filename` tries: the name itself, then
      `root_k + ext`. */
  function Candidate(name: string, k: nat): string {
    if k == 0 then name
    else
      var (root, ext) := SplitExt(name);
      root + "_" + Show(k) + ext
  }

  /** Every suffixed candidate is longer than the name itself. */
  lemma CandidateLonger(name: string, k: nat)
    requires k > 0
    ensures |Candidate(name, k)| > |name|
  {
  }

  /** Distinct attempts try distinct names. */
  lemma CandidateInjective(name: string, j: nat, k: nat)
    ensures Candidate(name, j) == Candidate(name, k) ==> j == k
  {
    var (root, ext) := SplitExt(name);
    var cj, ck := Candidate(name, j), Candidate(name, k);
    if j > 0 && k > 0 && cj == ck {
      assert |Show(j)| == |Show(k)|;
      var a := |root| + 1;
      assert cj[a..a + |Show(j)|] == Show(j);
      assert ck[a..a + |Show(k)|] == Show(k);
      ShowInjective(j, k);
    } else if j > 0 && k == 0 {
      CandidateLonger(name, j);
    } else if k > 0 && j == 0 {
      CandidateLonger(name, k);
    }
  }

  /** An injective function maps `k` arguments to `k` values. */
  lemma {:induction false} InjectiveImageSize(f: nat -> string, k: nat)
    requires forall i: nat, j: nat :: i < k && j < k && f(i) == f(j) ==> i == j
    ensures |set j: nat | j < k :: f(j)| == k
  {
    if k > 0 {
      InjectiveImageSize(f, k - 1);
      ImageStep(f, k);
      forall j: nat | j < k - 1
        ensures f(j) != f(k - 1)
      {
      }
      assert f(k - 1) !in set j: nat | j < k - 1 :: f(j);
    }
  }

  /** The image of the first `k` arguments adds `f(k - 1)` to that of the
      first `k - 1`. */
  lemma ImageStep(f: nat -> string, k: nat)
    requires k > 0
    ensures (set j: nat | j < k :: f(j)) == (set j: nat | j < k - 1 :: f(j)) + {f(k - 1)}
  {
    var s := set j: nat | j < k - 1 :: f(j);
    var t := set j: nat | j < k :: f(j);
    forall x | x in t
      ensures x in s + {f(k - 1)}
    {
      var j: nat :| j < k && f(j) == x;
      if j < k - 1 {
        assert x in s;
      }
    }
  }

  /** The first `k` candidates are `k` different names. */
  lemma CandidateSetSize(name: string, k: nat)
    ensures |set j: nat | j < k :: Candidate(name, j)| == k
  {
    var f := (j: nat) => Candidate(name, j);
    forall i: nat, j: nat | i < k && j < k && f(i) == f(j)
      ensures i == j
    {
      CandidateInjective(name, i, j);
    }
    InjectiveImageSize(f, k);
    assert forall j: nat :: f(j) == Candidate(name, j);
    assert (set j: nat | j < k :: f(j)) == set j: nat | j < k :: Candidate(name, j);
  }

  /** If the first `k` candidates are all taken, there are at least `k`
      existing names: the search cannot run past `|existing|`. */
  lemma CandidatesFill(existing: set<string>, name: string, k: nat)
    requires forall j :: 0 <= j < k ==> Candidate(name, j) in existing
    ensures k <= |existing|
  {
    CandidateSetSize(name, k);
    var s := set j: nat | j < k :: Candidate(name, j);
    assert s <= existing;
    assert existing == s + (existing - s);
    assert |existing| == |s| + |existing - s|;
  }

  /** The `while os.path.exists(...)` loop from attempt `k` on: the first
      free candidate at or after `k`. */
  function FreeIndex(existing: set<string>, name: string, k: nat): (r: nat)
    requires forall j :: 0 <= j < k ==> Candidate(name, j) in existing
    ensures k <= r <= |existing|
    ensures Candidate(name, r) !in existing
    ensures forall j :: 0 <= j < r ==> Candidate(name, j) in existing
    decreases |existing| - k
  {
    CandidatesFill(existing, name, k);
    if Candidate(name, k) !in existing then k
    else
      CandidatesFill(existing, name, k + 1);
      FreeIndex(existing, name, k + 1)
  }

  /** How many candidates `get_unique_filename` rejects: the index of the
      first free one. Every earlier candidate is taken, and there are never
      more rejections than existing names. */
  function UniqueIndex(existing: set<string>, name: string): (k: nat)
    ensures Candidate(name, k) !in existing
    ensures forall j :: 0 <= j < k ==> Candidate(name, j) in existing
    ensures k <= |existing|
  {
    FreeIndex(existing, name, 0)
  }

  /** `get_unique_filename`: the first candidate not in the directory. It is
      never an existing name, and the name itself is kept when it is free. */
  function UniqueFilename(existing: set<string>, name: string): (r: string)
    ensures r !in existing
    ensures name !in existing ==> r == name
  {
    Candidate(name, UniqueIndex(existing, name))
  }

  /** `os.path.exists` holds for `.` and `..` in every directory, so every
      set of names a directory can show holds both. */
  predicate DirectoryNames(existing: set<string>) {
    "." in existing && ".." in existing
  }

  /** A URL path ending in `/.` or `/..` is never saved over the directory
      itself or its parent: `.` and `..` have no extension, so the first
      name tried after them is `._1` or `.._1`. */
  lemma DotNamesSuffixed(existing: set<string>, name: string)
    requires DirectoryNames(existing)
    requires name == "." || name == ".."
    requires name + "_1" !in existing
    ensures UniqueFilename(existing, name) == name + "_1"
  {
    assert RFind(name, '/') == -1;
    assert !HasNonDot(name[..|name| - 1]);
    assert ExtStart(name) == |name|;
    assert Show(1) == "1";
    assert Candidate(name, 1) == name + "_1";
    UniqueFilenameIs(existing, name, 1);
  }

  /** When exactly the first `m` candidates are taken, the result is the
      `m`-th: `name.ext`, then `name_1.ext`, `name_2.ext`, ... */
  lemma UniqueFilenameIs(existing: set<string>, name: string, m: nat)
    requires forall j :: 0 <= j < m ==> Candidate(name, j) in existing
    requires Candidate(name, m) !in existing
    ensures UniqueFilename(existing, name) == Candidate(name, m)
  {
    var k := UniqueIndex(existing, name);
    assert Candidate(name, k) !in existing;
    assert Candidate(name, m) !in existing;
  }

  /** A name `stem.e` (the stem holding a non-dot character, `e` dot-free)
      splits into `stem` and `.e`. */
  lemma SplitExtDotted(stem: string, e: string)
    requires HasNonDot(stem) && '/' !in stem && '/' !in e && '.' !in e
    ensures SplitExt(stem + "." + e) == (stem, "." + e)
  {
    var name := stem + "." + e;
    DottedName(stem, e);
    ExtStartAtLastDot(name);
    var i := ExtStart(name);
    assert i == |stem|;
    assert name[..i] == stem;
    assert name[i..] == "." + e;
    assert SplitExt(name) == (name[..i], name[i..]);
  }

  /** `stem.e` is slash-free and has its last dot right after the stem. */
  lemma DottedName(stem: string, e: string)
    requires HasNonDot(stem) && '/' !in stem && '/' !in e && '.' !in e
    ensures var name := stem + "." + e;
      '/' !in name && RFind(name, '.') == |stem| && HasExtension(name)
  {
    var name := stem + "." + e;
    assert name[|stem|] == '.';
    assert name[|stem| + 1..] == e;
    RFindAt(name, '.', |stem|);
    assert name[..|stem|] == stem;
  }

  /** Two files named `stem.e` saved one after the other become `stem.e`
      and then `stem_1.e`, in any directory that held neither. */
  lemma SecondCopyGetsSuffix(existing: set<string>, stem: string, e: string)
    requires HasNonDot(stem) && '/' !in stem && '/' !in e && '.' !in e
    requires stem + "_1." + e !in existing
    ensures stem + "." + e !in existing ==> UniqueFilename(existing, stem + "." + e) == stem + "." + e
    ensures UniqueFilename(existing + {stem + "." + e}, stem + "." + e) == stem + "_1." + e
  {
    var name := stem + "." + e;
    SplitExtDotted(stem, e);
    assert Show(1) == "1";
    assert Candidate(name, 1) == stem + "_1." + e;
    CandidateLonger(name, 1);
    UniqueFilenameIs(existing + {name}, name, 1);
  }
}

=== FILE: headers.dfy ===
/** Request headers: `parse_headers` over the repeated `-H "Key: Value"`
    arguments, and the two user-agent pools an attempt may draw from. */
module Headers {
  import opened Text

  type HeaderMap = map<string, string>

  /** The header name of an item: the stripped text before its first colon. */
  function HeaderKey(item: string): string
    requires ':' in item
  {
    Strip(item[..Find(item, ':')])
  }

  /** The header value of an item: the stripped text after its first colon,
      which may itself contain colons. */
  function HeaderValue(item: string): string
    requires ':' in item
  {
    Strip(item[Find(item, ':') + 1..])
  }

  /** `item` is kept by the parser and names header `k`. */
  predicate Defines(item: string, k: string) {
    ':' in item && HeaderKey(item) == k
  }

  /** `parse_headers`: items without a colon are dropped, the rest are
      entered in order so that a later item overwrites an earlier one with
      the same key. */
  function ParseHeaders(items: seq<string>): HeaderMap {
    if items == [] then map[]
    else Enter(ParseHeaders(items[..|items| - 1]), items[|items| - 1])
  }

  /** One turn of the loop in `parse_headers`. */
  function Enter(m: HeaderMap, item: string): HeaderMap {
    if ':' in item then m[HeaderKey(item) := HeaderValue(item)] else m
  }

  /** An item is cut at its first colon only: `key` (which has no colon)
      becomes the name and everything after the colon the value. */
  lemma SplitAtFirstColon(key: string, value: string)
    requires ':' !in key
    ensures ':' in key + ":" + value
    ensures HeaderKey(key + ":" + value) == Strip(key)
    ensures HeaderValue(key + ":" + value) == Strip(value)
  {
    var item := key + ":" + value;
    assert item[..|key|] == key;
    assert item[|key|] == ':';
    FindAt(item, ':', |key|);
    assert item[|key| + 1..] == value;
  }

  /** A key is present exactly when some kept item names it. */
  lemma {:induction false} ParseHeadersKeys(items: seq<string>, k: string)
    ensures k in ParseHeaders(items) <==> exists i :: 0 <= i < |items| && Defines(items[i], k)
    decreases |items|
  {
    if items != [] {
      var prefix := items[..|items| - 1];
      ParseHeadersKeys(prefix, k);
      if exists i :: 0 <= i < |items| && Defines(items[i], k) {
        var i :| 0 <= i < |items| && Defines(items[i], k);
        if i < |items| - 1 {
          assert Defines(prefix[i], k);
        }
      }
    }
  }

  /** The last item naming a key decides its value. */
  lemma {:induction false} ParseHeadersLastWins(items: seq<string>, i: nat)
    requires i < |items| && ':' in items[i]
    requires forall j :: i < j < |items| ==> !Defines(items[j], HeaderKey(items[i]))
    ensures HeaderKey(items[i]) in ParseHeaders(items)
    ensures ParseHeaders(items)[HeaderKey(items[i])] == HeaderValue(items[i])
    decreases |items|
  {
    if i < |items| - 1 {
      var prefix := items[..|items| - 1];
      assert prefix[i] == items[i];
      assert forall j :: i < j < |prefix| ==> prefix[j] == items[j];
      ParseHeadersLastWins(prefix, i);
    }
  }

  /** An item without a colon contributes nothing, wherever it stands. */
  lemma {:induction false} ColonlessDropped(a: seq<string>, x: string, b: seq<string>)
    requires ':' !in x
    ensures ParseHeaders(a + [x] + b) == ParseHeaders(a + b)
    decreases |b|
  {
    if b == [] {
      assert a + [x] + b == a + [x] && a + b == a;
      assert (a + [x])[..|a|] == a;
      assert ParseHeaders(a + [x]) == Enter(ParseHeaders(a), x);
    } else {
      var b' := b[..|b| - 1];
      var last := b[|b| - 1];
      var long, short := a + [x] + b, a + b;
      assert long[..|long| - 1] == a + [x] + b' && long[|long| - 1] == last;
      assert short[..|short| - 1] == a + b' && short[|short| - 1] == last;
      assert ParseHeaders(long) == Enter(ParseHeaders(a + [x] + b'), last);
      assert ParseHeaders(short) == Enter(ParseHeaders(a + b'), last);
      ColonlessDropped(a, x, b');
    }
  }

  /** The header name an attempt overwrites when a user-agent mode is set. */
  const UserAgent: string := "User-Agent"

  /** The five desktop user-agent strings. */
  const DesktopAgents: seq<string> := [
    "Mozilla/5.0 (Windows NT 10.0; Win64; x64) AppleWebKit/537.36 (KHTML, like Gecko) Chrome/122.0.0.0 Safari/537.36",
    "Mozilla/5.0 (Macintosh; Intel Mac OS X 13_4) AppleWebKit/605.1.15 (KHTML, like Gecko) Version/16.4 Safari/605.1.15",
    "Mozilla/5.0 (X11; Linux x86_64) AppleWebKit/537.36 (KHTML, like Gecko) Chrome/121.0.0.0 Safari/537.36",
    "Mozilla/5.0 (Windows NT 10.0; rv:115.0) Gecko/20100101 Firefox/115.0",
    "Mozilla/5.0 (Macintosh; Intel Mac OS X 12_7) AppleWebKit/605.1.15 (KHTML, like Gecko) Version/16.0 Safari/605.1.15"
  ]

  /** The four mobile user-agent strings. */
  const MobileAgents: seq<string> := [
    "Mozilla/5.0 (iPhone; CPU iPhone OS 17_0 like Mac OS X) AppleWebKit/605.1.15 (KHTML, like Gecko) Version/17.0 Mobile/15E148 Safari/604.1",
    "Mozilla/5.0 (Linux; Android 13; Pixel 6) AppleWebKit/537.36 (KHTML, like Gecko) Chrome/122.0.0.0 Mobile Safari/537.36",
    "Mozilla/5.0 (Linux; Android 12; SM-G991B) AppleWebKit/537.36 (KHTML, like Gecko) Chrome/120.0.0.0 Mobile Safari/537.36",
    "Mozilla/5.0 (iPad; CPU OS 16_5 like Mac OS X) AppleWebKit/605.1.15 (KHTML, like Gecko) Version/16.0 Mobile/15E148 Safari/604.1"
  ]

  /** The desktop pool holds five agents and the mobile pool four. */
  lemma PoolSizes()
    ensures |DesktopAgents| == 5 && |MobileAgents| == 4
  {
  }
}

=== FILE: numerals.dfy ===
/** Decimal numerals: Python's `str(n)` for a non-negative integer, the
    value of a digit string, and the part of what `float()` accepts that
    the model reads: an optional sign and ASCII digits, with surrounding
    whitespace. */
module Numerals {
  import opened Wrappers
  import opened Text

  predicate IsDigit(c: char) {
    '0' <= c <= '9'
  }

  predicate AllDigits(s: string) {
    forall i :: 0 <= i < |s| ==> IsDigit(s[i])
  }

  function DigitChar(d: nat): (c: char)
    requires d < 10
    ensures IsDigit(c)
  {
    "0123456789"[d]
  }

  function DigitValue(c: char): (d: nat)
    requires IsDigit(c)
    ensures d < 10
  {
    c as int - '0' as int
  }

  /** `str(n)` for `n >= 0`: ASCII digits, no leading zero. */
  function Show(n: nat): (r: string)
    ensures |r| >= 1 && AllDigits(r)
    ensures |r| > 1 ==> r[0] != '0'
  {
    if n < 10 then [DigitChar(n)] else Show(n / 10) + [DigitChar(n % 10)]
  }

  /** The value of a string of ASCII digits, most significant first. */
  function DigitsValue(s: string): nat
    requires AllDigits(s)
  {
    if s == [] then 0 else DigitsValue(s[..|s| - 1]) * 10 + DigitValue(s[|s| - 1])
  }

  /** Reading back what `Show` wrote gives the number. */
  lemma {:induction false} ShowRoundTrip(n: nat)
    ensures DigitsValue(Show(n)) == n
  {
    if n >= 10 {
      var s := Show(n);
      assert s[..|s| - 1] == Show(n / 10);
      ShowRoundTrip(n / 10);
    }
  }

  /** Distinct numbers have distinct renderings, so the `_k` suffixes a
      collision search tries never repeat. */
  lemma ShowInjective(m: nat, n: nat)
    requires Show(m) == Show(n)
    ensures m == n
  {
    ShowRoundTrip(m);
    ShowRoundTrip(n);
  }

  /** The whitespace `float()` passes over around its numeral. It turns
      every non-ASCII whitespace character into a space first, but of the
      ASCII characters it skips only space, tab, `\n`, `\v`, `\f` and
      `\r`: the separators U+001C to U+001F, which `str.strip()` removes,
      stay and make the text no number. */
  predicate IsFloatSpace(c: char) {
    IsSpace(c) && !('\U{1C}' <= c <= '\U{1F}')
  }

  predicate AllFloatSpace(s: string) {
    forall k :: 0 <= k < |s| ==> IsFloatSpace(s[k])
  }

  /** Drops the leading whitespace `float()` skips. */
  function FloatTrimLeft(s: string): string {
    if |s| > 0 && IsFloatSpace(s[0]) then FloatTrimLeft(s[1..]) else s
  }

  /** Drops the trailing whitespace `float()` skips. */
  function FloatTrimRight(s: string): string {
    if |s| > 0 && IsFloatSpace(s[|s| - 1]) then FloatTrimRight(s[..|s| - 1]) else s
  }

  function FloatTrim(s: string): string {
    FloatTrimRight(FloatTrimLeft(s))
  }

  /** The ASCII integer numerals `float()` reads: the whitespace it skips,
      an optional `+` or `-`, then one or more ASCII digits. Everything
      else gives `None`, including forms `float()` does read (fractions,
      exponents, other scripts' digits), which the model does not. */
  function ParseInteger(s: string): Option<int> {
    ParseNumeral(FloatTrim(s))
  }

  /** An optional sign followed by one or more digits, with nothing around. */
  function ParseNumeral(t: string): (r: Option<int>)
    ensures r.Some? ==> |t| >= 1 && forall i :: 0 < i < |t| ==> IsDigit(t[i])
    ensures r.Some? && !IsDigit(t[0]) ==> |t| >= 2
  {
    if |t| > 0 && (t[0] == '+' || t[0] == '-') then
      if |t| > 1 && AllDigits(t[1..]) then
        var v: int := DigitsValue(t[1..]);
        Some(if t[0] == '-' then -v else v)
      else None
    else if |t| > 0 && AllDigits(t) then Some(DigitsValue(t))
    else None
  }

  /** The shape `ParseNumeral` reads: a digit, or a sign with at least one
      character after it, and nothing but digits after the first character. */
  predicate IsNumeral(t: string) {
    && |t| >= 1
    && (IsDigit(t[0]) || ((t[0] == '+' || t[0] == '-') && |t| >= 2))
    && forall i :: 0 < i < |t| ==> IsDigit(t[i])
  }

  /** A numeral is read exactly when it has the shape of one. */
  lemma ParseNumeralAccepts(t: string)
    ensures ParseNumeral(t).Some? <==> IsNumeral(t)
  {
    if IsNumeral(t) && (t[0] == '+' || t[0] == '-') {
      assert forall i :: 0 <= i < |t| - 1 ==> t[1..][i] == t[i + 1];
    }
  }

  /** A numeral has no whitespace at either end, no lower-case letter, and
      ends in a digit. */
  lemma NumeralShape(d: string)
    requires IsNumeral(d)
    ensures Trimmed(d) && NoLowerLetters(d) && IsDigit(d[|d| - 1])
  {
    assert IsDigit(d[|d| - 1]);
    forall k | 0 <= k < |d|
      ensures !('a' <= d[k] <= 'z')
    {
      if k > 0 {
        assert IsDigit(d[k]);
      }
    }
  }

  /** The whitespace `float()` skips is whitespace to `str.strip()` too. */
  lemma FloatSpaceIsSpace(w: string)
    requires AllFloatSpace(w)
    ensures AllSpace(w)
  {
  }

  /** Text without whitespace at either end is left as it is. */
  lemma FloatTrimTrimmed(t: string)
    requires Trimmed(t)
    ensures FloatTrim(t) == t
  {
  }

  /** Trailing whitespace that `float()` skips is passed over. */
  lemma {:induction false} FloatTrimRightSkips(x: string, w: string)
    requires AllFloatSpace(w)
    ensures FloatTrimRight(x + w) == FloatTrimRight(x)
    decreases |w|
  {
    if |w| > 0 {
      var s := x + w;
      assert s[|s| - 1] == w[|w| - 1];
      var v := w[..|w| - 1];
      assert s[..|s| - 1] == x + v;
      assert AllFloatSpace(v) by {
        forall k | 0 <= k < |v|
          ensures IsFloatSpace(v[k])
        {
          assert v[k] == w[k];
        }
      }
      FloatTrimRightSkips(x, v);
    } else {
      assert x + w == x;
    }
  }

  /** A numeral followed by whitespace that `float()` skips reads as the
      numeral. */
  lemma ParsePadded(d: string, w: string)
    requires IsNumeral(d) && AllFloatSpace(w)
    ensures ParseInteger(d + w) == ParseNumeral(d)
  {
    NumeralShape(d);
    assert (d + w)[0] == d[0];
    assert FloatTrimLeft(d + w) == d + w;
    FloatTrimRightSkips(d, w);
    FloatTrimTrimmed(d);
  }

  /** A numeral followed by one of the separators U+001C to U+001F is no
      number, although `str.strip()` would remove the separator. */
  lemma ParseSeparatorRejected(d: string, c: char)
    requires IsNumeral(d) && '\U{1C}' <= c <= '\U{1F}'
    ensures IsSpace(c) && ParseInteger(d + [c]) == None
  {
    NumeralShape(d);
    var t := d + [c];
    assert t[0] == d[0] && t[|t| - 1] == c;
    assert FloatTrimLeft(t) == t;
    assert FloatTrim(t) == t;
    assert !IsDigit(t[|d|]);
    ParseNumeralAccepts(t);
  }

  /** Text without surrounding whitespace is read as it stands. */
  lemma ParseTrimmed(t: string)
    requires Trimmed(t)
    ensures ParseInteger(t) == ParseNumeral(t)
  {
    FloatTrimTrimmed(t);
  }

  /** A bare digit string reads as its value. */
  lemma ParseDigits(d: string)
    requires |d| >= 1 && AllDigits(d)
    ensures ParseInteger(d) == Some(DigitsValue(d))
  {
    assert !IsSpace(d[0]) && !IsSpace(d[|d| - 1]);
    ParseTrimmed(d);
  }

  lemma NumeralSigned(sign: char, d: string)
    requires sign == '+' || sign == '-'
    requires |d| >= 1 && AllDigits(d)
    ensures Trimmed([sign] + d)
    ensures ParseNumeral([sign] + d) == Some(if sign == '-' then -(DigitsValue(d) as int) else DigitsValue(d))
  {
    var t := [sign] + d;
    assert t[0] == sign && t[1..] == d;
    assert t[|t| - 1] == d[|d| - 1] && IsDigit(d[|d| - 1]);
    assert !IsSpace(t[0]) && !IsSpace(t[|t| - 1]);
    SignedValue(sign, d, t);
  }

  lemma SignedValue(sign: char, d: string, t: string)
    requires sign == '+' || sign == '-'
    requires |d| >= 1 && AllDigits(d) && t == [sign] + d
    ensures ParseNumeral(t) == Some(if sign == '-' then -(DigitsValue(d) as int) else DigitsValue(d))
  {
    assert t[0] == sign && |t| > 1 && t[1..] == d;
  }

  /** A digit string behind one sign character reads as its signed value. */
  lemma ParseSigned(sign: char, d: string)
    requires sign == '+' || sign == '-'
    requires |d| >= 1 && AllDigits(d)
    ensures ParseInteger([sign] + d) == Some(if sign == '-' then -(DigitsValue(d) as int) else DigitsValue(d))
  {
    NumeralSigned(sign, d);
    ParseTrimmed([sign] + d);
  }

  /** Parsing what `str(n)` renders gives `n` back. */
  lemma ParseShow(n: nat)
    ensures ParseInteger(Show(n)) == Some(n)
  {
    ShowRoundTrip(n);
    ParseDigits(Show(n));
  }

  /** Text with a letter or other non-numeral character inside is refused. */
  lemma ParseRejectsNonDigit(s: string, i: nat)
    requires Trimmed(s) && 0 < i < |s| && !IsDigit(s[i])
    ensures ParseInteger(s) == None
  {
    FloatTrimTrimmed(s);
    if s[0] == '+' || s[0] == '-' {
      assert s[1..][i - 1] == s[i];
    }
  }
}

=== FILE: report.dfy ===
/** The summary `main` builds once every task has finished: the outcomes,
    in the order the finished futures are read, are filed into three order-preserving buckets,
    and those that saved a non-empty body with status 200 are counted and
    their sizes added up. Also the status-code colour bands. */
module Report {
  import opened Wrappers
  import opened Download

  datatype Bucket = Successes | Skips | Failures

  /** The bucket an outcome's message prefix (`[✓]`, `[!]`, `[✗]`) files it
      in. A `NoAttempt` outcome has no message and is in none. */
  predicate Tagged(o: Outcome, b: Bucket) {
    match b
    case Successes => o.Success?
    case Skips => o.Skipped?
    case Failures => o.Failed?
  }

  /** An outcome that adds to the download count and the byte total. */
  predicate Qualifies(o: Outcome) {
    o.Success? && o.status == 200 && o.size > 0
  }

  datatype Summary = Summary(successes: seq<Outcome>, skips: seq<Outcome>, failures: seq<Outcome>, count: nat, bytes: nat)

  const Empty: Summary := Summary([], [], [], 0, 0)

  /** One turn of the result loop: file the outcome at the end of its
      bucket, and count it when it qualifies. */
  function Step(s: Summary, o: Outcome): Summary {
    match o
    case Success(_, status, size, _) =>
      var s' := s.(successes := s.successes + [o]);
      if status == 200 && size > 0 then s'.(count := s.count + 1, bytes := s.bytes + size) else s'
    case Skipped(_, _) => s.(skips := s.skips + [o])
    case Failed(_, _, _) => s.(failures := s.failures + [o])
    case NoAttempt(_) => s
  }

  function Fold(s: Summary, outs: seq<Outcome>): Summary
    decreases |outs|
  {
    if outs == [] then s else Fold(Step(s, outs[0]), outs[1..])
  }

  /** The corrected result loop over outcomes in the order they are read. */
  function Aggregate(outs: seq<Outcome>): Summary {
    Fold(Empty, outs)
  }

  /** The outcomes of one bucket, in input order: the list comprehensions
      that build the three buckets. */
  function Filed(outs: seq<Outcome>, b: Bucket): seq<Outcome> {
    if outs == [] then [] else (if Tagged(outs[0], b) then [outs[0]] else []) + Filed(outs[1..], b)
  }

  /** How many outcomes qualify. */
  function Downloaded(outs: seq<Outcome>): nat {
    if outs == [] then 0 else (if Qualifies(outs[0]) then 1 else 0) + Downloaded(outs[1..])
  }

  /** The sizes of the qualifying outcomes, added up. */
  function ByteTotal(outs: seq<Outcome>): nat {
    if outs == [] then 0 else (if Qualifies(outs[0]) then outs[0].size else 0) + ByteTotal(outs[1..])
  }

  lemma {:induction false} FoldIsFilter(s: Summary, outs: seq<Outcome>)
    ensures Fold(s, outs) == Summary(
      s.successes + Filed(outs, Successes), s.skips + Filed(outs, Skips), s.failures + Filed(outs, Failures),
      s.count + Downloaded(outs), s.bytes + ByteTotal(outs))
    decreases |outs|
  {
    if outs != [] {
      var s' := Step(s, outs[0]);
      FoldIsFilter(s', outs[1..]);
      assert s'.successes + Filed(outs[1..], Successes) == s.successes + Filed(outs, Successes);
      assert s'.skips + Filed(outs[1..], Skips) == s.skips + Filed(outs, Skips);
      assert s'.failures + Filed(outs[1..], Failures) == s.failures + Filed(outs, Failures);
    }
  }

  /** The loop's buckets are the three filtered lists, and its count and
      byte total are those of the qualifying outcomes. */
  lemma AggregateIsFilter(outs: seq<Outcome>)
    ensures Aggregate(outs) == Summary(
      Filed(outs, Successes), Filed(outs, Skips), Filed(outs, Failures), Downloaded(outs), ByteTotal(outs))
  {
    FoldIsFilter(Empty, outs);
  }

  /** A bucket holds exactly the outcomes of its kind. */
  lemma {:induction false} FiledMembers(outs: seq<Outcome>, b: Bucket, o: Outcome)
    ensures o in Filed(outs, b) <==> o in outs && Tagged(o, b)
    decreases |outs|
  {
    if outs != [] {
      FiledMembers(outs[1..], b, o);
      assert outs == [outs[0]] + outs[1..];
    }
  }

  /** Filing preserves order: the outcomes read first come first. */
  lemma {:induction false} FiledAppend(xs: seq<Outcome>, ys: seq<Outcome>, b: Bucket)
    ensures Filed(xs + ys, b) == Filed(xs, b) + Filed(ys, b)
    decreases |xs|
  {
    if xs == [] {
      assert xs + ys == ys;
    } else {
      var head := if Tagged(xs[0], b) then [xs[0]] else [];
      assert (xs + ys)[0] == xs[0] && (xs + ys)[1..] == xs[1..] + ys;
      assert Filed(xs + ys, b) == head + Filed(xs[1..] + ys, b);
      FiledAppend(xs[1..], ys, b);
    }
  }

  function Unfiled(outs: seq<Outcome>): nat {
    if outs == [] then 0 else (if outs[0].NoAttempt? then 1 else 0) + Unfiled(outs[1..])
  }

  /** Every outcome except a `NoAttempt` lands in exactly one bucket. */
  lemma {:induction false} BucketsPartition(outs: seq<Outcome>)
    ensures |Filed(outs, Successes)| + |Filed(outs, Skips)| + |Filed(outs, Failures)| + Unfiled(outs) == |outs|
    decreases |outs|
  {
    if outs != [] {
      BucketsPartition(outs[1..]);
    }
  }

  lemma {:induction false} TotalsAppend(xs: seq<Outcome>, ys: seq<Outcome>)
    ensures Downloaded(xs + ys) == Downloaded(xs) + Downloaded(ys)
    ensures ByteTotal(xs + ys) == ByteTotal(xs) + ByteTotal(ys)
    decreases |xs|
  {
    if xs == [] {
      assert xs + ys == ys;
    } else {
      assert (xs + ys)[1..] == xs[1..] + ys;
      TotalsAppend(xs[1..], ys);
    }
  }

  /** Taking one occurrence of `x` out of two sequences with the same
      elements leaves two sequences with the same elements. */
  lemma RemoveOne<T>(xs: seq<T>, ys: seq<T>, i: nat)
    requires multiset(xs) == multiset(ys) && xs != [] && i < |ys| && ys[i] == xs[0]
    ensures multiset(xs[1..]) == multiset(ys[..i] + ys[i + 1..])
  {
    assert xs == [xs[0]] + xs[1..];
    assert ys == ys[..i] + [ys[i]] + ys[i + 1..];
    assert multiset(ys) == multiset(ys[..i]) + multiset{ys[i]} + multiset(ys[i + 1..]);
    assert multiset(ys[..i] + ys[i + 1..]) == multiset(ys[..i]) + multiset(ys[i + 1..]);
    assert multiset(xs[1..]) == multiset(xs) - multiset{xs[0]};
    assert multiset(ys[..i] + ys[i + 1..]) == multiset(ys) - multiset{xs[0]};
  }

  /** The totals of `left + [x] + right` are those of `[x] + (left + right)`. */
  lemma TotalsMoveFront(left: seq<Outcome>, x: Outcome, right: seq<Outcome>)
    ensures Downloaded(left + [x] + right) == Downloaded([x] + (left + right))
    ensures ByteTotal(left + [x] + right) == ByteTotal([x] + (left + right))
  {
    TotalsAppend(left + [x], right);
    TotalsAppend(left, [x]);
    TotalsAppend(left, right);
    TotalsAppend([x], left + right);
  }

  /** The count and the byte total do not depend on the order of the outcomes. */
  lemma {:induction false} TotalsIgnoreOrder(xs: seq<Outcome>, ys: seq<Outcome>)
    requires multiset(xs) == multiset(ys)
    ensures Downloaded(xs) == Downloaded(ys) && ByteTotal(xs) == ByteTotal(ys)
    decreases |xs|
  {
    if xs == [] {
      assert |ys| == |multiset(ys)| == 0;
    } else {
      var x := xs[0];
      assert x in multiset(ys);
      var i :| 0 <= i < |ys| && ys[i] == x;
      var left, right := ys[..i], ys[i + 1..];
      assert ys == left + [x] + right;
      RemoveOne(xs, ys, i);
      TotalsIgnoreOrder(xs[1..], left + right);
      TotalsMoveFront(left, x, right);
      assert xs == [x] + xs[1..];
      TotalsAppend([x], xs[1..]);
    }
  }

  /** Each of `0, 1, ..., n - 1` once. */
  function Indices(n: nat): multiset<nat> {
    if n == 0 then multiset{} else Indices(n - 1) + multiset{n - 1}
  }

  lemma {:induction false} IndicesBelow(n: nat, x: nat)
    ensures x in Indices(n) <==> x < n
  {
    if n > 0 {
      IndicesBelow(n - 1, x);
    }
  }

  /** The order in which the result loop reads `n` finished futures: every
      task index exactly once. The loop only starts once the pool has shut
      down, so `as_completed` hands out futures that are all done, in the
      order of an internal set rather than the order they finished in. */
  predicate ReadOrder(order: seq<nat>, n: nat) {
    multiset(order) == Indices(n)
  }

  lemma {:induction false} IndicesSize(n: nat)
    ensures |Indices(n)| == n
  {
    if n > 0 {
      IndicesSize(n - 1);
    }
  }

  /** A read order of `n` futures names `n` task indices. */
  lemma ReadOrderBounds(order: seq<nat>, n: nat)
    requires ReadOrder(order, n)
    ensures |order| == n
    ensures forall i :: 0 <= i < |order| ==> order[i] < n
  {
    IndicesSize(n);
    assert |order| == |multiset(order)|;
    forall i | 0 <= i < |order|
      ensures order[i] < n
    {
      assert order[i] in multiset(order);
      IndicesBelow(n, order[i]);
    }
  }

  /** The outcomes in read order. */
  function Pick<T>(outs: seq<T>, order: seq<nat>): (r: seq<T>)
    requires forall i :: 0 <= i < |order| ==> order[i] < |outs|
    ensures |r| == |order| && forall i :: 0 <= i < |order| ==> r[i] == outs[order[i]]
  {
    seq(|order|, i requires 0 <= i < |order| => outs[order[i]])
  }

  /** Reading the outcomes in any read order yields the same outcomes,
      each as often as it occurred. */
  lemma {:induction false} PickPermutes<T>(outs: seq<T>, order: seq<nat>)
    requires ReadOrder(order, |outs|)
    requires forall i :: 0 <= i < |order| ==> order[i] < |outs|
    ensures multiset(Pick(outs, order)) == multiset(outs)
    decreases |outs|
  {
    if outs == [] {
      assert |order| == |multiset(order)|;
    } else {
      var k, rest := LastIndexAt(order, |outs| - 1);
      PickPermutes(outs[..|outs| - 1], rest);
      PickSplice(outs, order, k, rest);
    }
  }

  /** Inserting `x` anywhere adds one occurrence of it. */
  lemma InsertOne<T>(a: seq<T>, x: T, k: nat)
    requires k <= |a|
    ensures multiset(a[..k] + [x] + a[k..]) == multiset(a) + multiset{x}
  {
    assert a == a[..k] + a[k..];
  }

  /** Where a read order of `m + 1` futures reads the last one; the others
      form a read order of `m`. */
  lemma LastIndexAt(order: seq<nat>, m: nat) returns (k: nat, rest: seq<nat>)
    requires ReadOrder(order, m + 1)
    ensures k < |order| && order[k] == m && rest == order[..k] + order[k + 1..]
    ensures ReadOrder(rest, m)
    ensures forall i :: 0 <= i < |rest| ==> rest[i] < m
  {
    IndicesBelow(m + 1, m);
    assert m in multiset(order);
    k :| 0 <= k < |order| && order[k] == m;
    rest := order[..k] + order[k + 1..];
    SpliceOut(order, k);
    assert multiset(rest) + multiset{m} == Indices(m) + multiset{m};
    CancelOne(multiset(rest), Indices(m), m);
    ReadOrderBounds(rest, m);
  }

  /** Taking one element out of a sequence takes one occurrence out of
      its multiset. */
  lemma SpliceOut<T>(s: seq<T>, k: nat)
    requires k < |s|
    ensures multiset(s) == multiset(s[..k] + s[k + 1..]) + multiset{s[k]}
  {
    assert s == s[..k] + [s[k]] + s[k + 1..];
  }

  lemma CancelOne<T>(a: multiset<T>, b: multiset<T>, x: T)
    requires a + multiset{x} == b + multiset{x}
    ensures a == b
  {
    assert a == (a + multiset{x}) - multiset{x};
    assert b == (b + multiset{x}) - multiset{x};
  }

  /** Reading all outcomes is reading every outcome but the last one, in
      the read order with the last index taken out, with the last outcome
      put back where that index was: so when the shorter reading has the
      same outcomes as the shorter list, the full reading has all of them. */
  lemma PickSplice<T>(outs: seq<T>, order: seq<nat>, k: nat, rest: seq<nat>)
    requires outs != [] && k < |order| && order[k] == |outs| - 1
    requires rest == order[..k] + order[k + 1..]
    requires forall i :: 0 <= i < |order| ==> order[i] < |outs|
    requires forall i :: 0 <= i < |rest| ==> rest[i] < |outs| - 1
    requires multiset(Pick(outs[..|outs| - 1], rest)) == multiset(outs[..|outs| - 1])
    ensures multiset(Pick(outs, order)) == multiset(outs)
  {
    var m := |outs| - 1;
    var q, q' := Pick(outs, order), Pick(outs[..m], rest);
    forall i | 0 <= i < |q|
      ensures q[i] == (q'[..k] + [outs[m]] + q'[k..])[i]
    {
      if i < k {
        assert rest[i] == order[i];
      } else if i > k {
        assert rest[i - 1] == order[i];
      }
    }
    assert q == q'[..k] + [outs[m]] + q'[k..];
    InsertOne(q', outs[m], k);
    assert outs == outs[..m] + [outs[m]];
  }

  /** The totals of the outcomes in read order are those of the outcomes
      in the order the tasks ran. */
  lemma ReadOrderTotals(outs: seq<Outcome>, order: seq<nat>)
    requires ReadOrder(order, |outs|)
    ensures forall i :: 0 <= i < |order| ==> order[i] < |outs|
    ensures Downloaded(Pick(outs, order)) == Downloaded(outs)
    ensures ByteTotal(Pick(outs, order)) == ByteTotal(outs)
  {
    ReadOrderBounds(order, |outs|);
    PickPermutes(outs, order);
    TotalsIgnoreOrder(Pick(outs, order), outs);
  }

  /** Each counted download adds at least one byte. */
  lemma {:induction false} BytesCoverCount(outs: seq<Outcome>)
    ensures ByteTotal(outs) >= Downloaded(outs)
    ensures Downloaded(outs) > 0 <==> exists i :: 0 <= i < |outs| && Qualifies(outs[i])
    decreases |outs|
  {
    if outs != [] {
      BytesCoverCount(outs[1..]);
      if exists i :: 0 <= i < |outs| && Qualifies(outs[i]) {
        var i :| 0 <= i < |outs| && Qualifies(outs[i]);
        if i > 0 {
          assert Qualifies(outs[1..][i - 1]);
        }
      }
      if exists i :: 0 <= i < |outs[1..]| && Qualifies(outs[1..][i]) {
        var i :| 0 <= i < |outs[1..]| && Qualifies(outs[1..][i]);
        assert Qualifies(outs[i + 1]);
      }
    }
  }

  /** The closing line with the count and the byte total, printed only when
      the count is non-zero. */
  function TotalLine(s: Summary): Option<(nat, nat)> {
    if s.count != 0 then Some((s.count, s.bytes)) else None
  }

  /** The total line appears exactly when some outcome qualifies, and then
      reports at least one byte per file. */
  lemma TotalLineShown(outs: seq<Outcome>)
    ensures TotalLine(Aggregate(outs)).Some? <==> exists i :: 0 <= i < |outs| && Qualifies(outs[i])
    ensures TotalLine(Aggregate(outs)).Some? ==> TotalLine(Aggregate(outs)).value.1 >= TotalLine(Aggregate(outs)).value.0 > 0
  {
    AggregateIsFilter(outs);
    BytesCoverCount(outs);
  }

  /** The result loop as written: it unpacks every result into
      `(message, status, size)`, which only a success provides, so the
      first other outcome raises and no summary is produced. */
  datatype Ending = Crashed(at: nat) | Finished(summary: Summary)

  function LoopAsWritten(s: Summary, outs: seq<Outcome>, i: nat): Ending
    requires i <= |outs|
    decreases |outs| - i
  {
    if i == |outs| then Finished(s)
    else if !outs[i].Success? then Crashed(i)
    else LoopAsWritten(Step(s, outs[i]), outs, i + 1)
  }

  function AggregateAsWritten(outs: seq<Outcome>): Ending {
    LoopAsWritten(Empty, outs, 0)
  }

  lemma {:induction false} LoopCrashesAt(s: Summary, outs: seq<Outcome>, i: nat, k: nat)
    requires i <= k < |outs| && !outs[k].Success?
    requires forall j :: i <= j < k ==> outs[j].Success?
    ensures LoopAsWritten(s, outs, i) == Crashed(k)
    decreases |outs| - i
  {
    if i < k {
      LoopCrashesAt(Step(s, outs[i]), outs, i + 1, k);
    }
  }

  /** As written, the loop stops at the first outcome that is not a success. */
  lemma AsWrittenCrashes(outs: seq<Outcome>, k: nat)
    requires k < |outs| && !outs[k].Success?
    requires forall j :: 0 <= j < k ==> outs[j].Success?
    ensures AggregateAsWritten(outs) == Crashed(k)
  {
    LoopCrashesAt(Empty, outs, 0, k);
  }

  lemma {:induction false} LoopFinishes(s: Summary, outs: seq<Outcome>, i: nat)
    requires i <= |outs|
    requires forall j :: i <= j < |outs| ==> outs[j].Success?
    ensures LoopAsWritten(s, outs, i) == Finished(Fold(s, outs[i..]))
    decreases |outs| - i
  {
    if i < |outs| {
      assert outs[i..][0] == outs[i] && outs[i..][1..] == outs[i + 1..];
      LoopFinishes(Step(s, outs[i]), outs, i + 1);
    }
  }

  /** When every task succeeds the loop as written and the corrected one agree. */
  lemma AsWrittenAgrees(outs: seq<Outcome>)
    requires forall j :: 0 <= j < |outs| ==> outs[j].Success?
    ensures AggregateAsWritten(outs) == Finished(Aggregate(outs))
  {
    LoopFinishes(Empty, outs, 0);
    assert outs[0..] == outs;
  }

  /** A single skipped URL: the loop as written raises, the corrected loop
      files it under the skips and counts nothing. */
  lemma OneSkipShowsCrash(url: string)
    ensures AggregateAsWritten([Skipped(NoFilename, url)]) == Crashed(0)
    ensures Aggregate([Skipped(NoFilename, url)]) == Summary([], [Skipped(NoFilename, url)], [], 0, 0)
  {
    var outs := [Skipped(NoFilename, url)];
    assert outs[1..] == [];
    assert Aggregate(outs) == Fold(Step(Empty, outs[0]), outs[1..]);
  }

  /** A mixed run: one counted success, one failure, one skip. */
  lemma MixedRun(name: string, a: string, b: string, c: string)
    ensures var outs := [Success(name, 200, 500, a), Failed(b, 3, "timeout"), Skipped(NoFilename, c)];
      Aggregate(outs) == Summary([outs[0]], [outs[2]], [outs[1]], 1, 500)
  {
    var outs := [Success(name, 200, 500, a), Failed(b, 3, "timeout"), Skipped(NoFilename, c)];
    var s1 := Step(Empty, outs[0]);
    var s2 := Step(s1, outs[1]);
    var s3 := Step(s2, outs[2]);
    assert outs[1..][1..][1..] == [];
    assert Aggregate(outs) == Fold(s1, outs[1..]);
    assert Fold(s1, outs[1..]) == Fold(s2, outs[1..][1..]);
    assert Fold(s2, outs[1..][1..]) == Fold(s3, outs[1..][1..][1..]);
  }

  datatype Band = Green | Yellow | Red

  /** `colorize_status`: 2xx green, 3xx yellow, anything else red. */
  function StatusBand(code: int): (b: Band)
    ensures b == Green <==> code / 100 == 2
    ensures b == Yellow <==> code / 100 == 3
  {
    if 200 <= code < 300 then Green else if 300 <= code < 400 then Yellow else Red
  }
}

=== FILE: run.dfy ===
/** `main` with the network, the threads and the directory as inputs: the
    order in which it reads its arguments and gives up, the run of all
    tasks against one output directory in the order they reach it, and the
    summary of the outcomes in the order the finished futures are read. */
module Run {
  import opened Wrappers
  import opened Headers
  import opened Sizes
  import opened FileNames
  import opened Download
  import opened Report

  /** The command-line arguments the core reads. */
  datatype Config = Config(
    headerItems: seq<string>,
    types: string,
    desktop: bool,
    mobile: bool,
    minArg: Option<string>,
    maxArg: Option<string>,
    retries: int,
    threads: int)

  /** One URL together with what its attempts meet: each attempt's reply and
      each attempt's random pool index. A run lists its jobs in the order
      the tasks reach the output directory, which the threads decide. */
  datatype Job = Job(task: Task, script: seq<Reply>, picks: seq<nat>)

  /** How `main` ends: the two early returns, a size argument that
      `parse_size` raises on, a worker count `ThreadPoolExecutor` refuses,
      or a completed run: the outcomes in the order the tasks ran, the same
      outcomes in the order the result loop reads them, and the summary that
      loop builds. */
  datatype RunResult =
    | AgentConflict
    | BadSize
    | NoUrls
    | NoWorkers
    | Completed(ran: seq<Outcome>, report: seq<Outcome>, summary: Summary)

  predicate Scripted(retries: int, jobs: seq<Job>) {
    forall i :: 0 <= i < |jobs| ==> retries <= |jobs[i].script| && retries <= |jobs[i].picks|
  }

  /** The pool `--random-useragent` or `--mobile-useragent` selects. */
  function Agent(c: Config): (m: AgentMode)
    ensures m.RandomAgent? ==> |m.pool| > 0
  {
    if c.desktop then RandomAgent(DesktopAgents) else if c.mobile then RandomAgent(MobileAgents) else NoAgent
  }

  /** A parsed size argument as the bound `download_file` receives. */
  function Bound(a: SizeArg): Option<int>
    requires !a.NotInteger?
  {
    if a.Bytes? then Some(a.n) else None
  }

  /** No two successes name the same file, and none names a file that was
      already there. */
  predicate FreshNames(outs: seq<Outcome>, existing: set<string>) {
    && (forall i :: 0 <= i < |outs| && outs[i].Success? ==> outs[i].filename !in existing)
    && (forall i, j :: 0 <= i < j < |outs| && outs[i].Success? && outs[j].Success? ==> outs[i].filename != outs[j].filename)
  }

  /** What one task ends in, given the names already taken. */
  function TaskOutcome(p: Policy, existing: set<string>, job: Job): (o: Outcome)
    requires p.retries <= |job.script| && p.retries <= |job.picks| && HasPool(p)
    ensures o.url == job.task.url
    ensures o.Success? ==> o.filename !in existing
  {
    DownloadFile(p, job.task, existing, job.script, job.picks).outcome
  }

  /** The names taken once outcome `o` has been saved. */
  function Taken(existing: set<string>, o: Outcome): set<string> {
    if o.Success? then existing + {o.filename} else existing
  }

  /** The tasks in the order they reach the output directory, each seeing
      the names the earlier ones saved. */
  function Execute(p: Policy, existing: set<string>, jobs: seq<Job>): (r: seq<Outcome>)
    requires Scripted(p.retries, jobs) && HasPool(p) && DirectoryNames(existing)
    ensures |r| == |jobs|
    ensures forall i :: 0 <= i < |r| ==> r[i].url == jobs[i].task.url
    decreases |jobs|
  {
    if jobs == [] then []
    else
      var o := TaskOutcome(p, existing, jobs[0]);
      [o] + Execute(p, Taken(existing, o), jobs[1..])
  }

  /** The names the successes among `outs` were saved under. */
  function Saved(outs: seq<Outcome>): set<string> {
    if outs == [] then {}
    else (if outs[0].Success? then {outs[0].filename} else {}) + Saved(outs[1..])
  }

  /** Each task ends as its own download ends against the directory as the
      earlier tasks left it: the names that were there plus every name an
      earlier task saved. */
  lemma {:induction false} ExecuteSees(p: Policy, existing: set<string>, jobs: seq<Job>)
    requires Scripted(p.retries, jobs) && HasPool(p) && DirectoryNames(existing)
    ensures var r := Execute(p, existing, jobs);
      && |r| == |jobs|
      && forall i :: 0 <= i < |jobs| ==> r[i] == TaskOutcome(p, existing + Saved(r[..i]), jobs[i])
    decreases |jobs|
  {
    if jobs != [] {
      var o := TaskOutcome(p, existing, jobs[0]);
      var saved := Taken(existing, o);
      var rest := Execute(p, saved, jobs[1..]);
      ExecuteSees(p, saved, jobs[1..]);
      var r := Execute(p, existing, jobs);
      assert r == [o] + rest;
      forall i | 0 <= i < |jobs|
        ensures r[i] == TaskOutcome(p, existing + Saved(r[..i]), jobs[i])
      {
        if i == 0 {
          assert r[..0] == [];
          assert existing + {} == existing;
        } else {
          SavedShift(existing, o, rest, i);
          assert r[i] == rest[i - 1] && jobs[i] == jobs[1..][i - 1];
        }
      }
    }
  }

  /** Two tasks for the same file `stem.e`, over a directory holding
      neither `stem.e` nor `stem_1.e`: the first one saved keeps the name
      and the second becomes `stem_1.e`. */
  lemma SameFileTwice(p: Policy, existing: set<string>, jobs: seq<Job>, stem: string, e: string)
    requires |jobs| == 2 && Scripted(p.retries, jobs) && HasPool(p) && DirectoryNames(existing)
    requires HasNonDot(stem) && '/' !in stem && '/' !in e && '.' !in e
    requires Basename(jobs[0].task.path) == stem + "." + e && Basename(jobs[1].task.path) == stem + "." + e
    requires stem + "." + e !in existing && stem + "_1." + e !in existing
    ensures var r := Execute(p, existing, jobs);
      r[0].Success? ==> r[0].filename == stem + "." + e
    ensures var r := Execute(p, existing, jobs);
      r[0].Success? && r[1].Success? ==> r[1].filename == stem + "_1." + e
  {
    var r := Execute(p, existing, jobs);
    ExecuteSees(p, existing, jobs);
    SecondCopyGetsSuffix(existing, stem, e);
    SavedPrefixes(existing, r, stem + "." + e);
  }

  /** Before the first outcome nothing is saved; after a first success
      named `name`, exactly that name is. */
  lemma SavedPrefixes(existing: set<string>, r: seq<Outcome>, name: string)
    requires |r| >= 1
    ensures existing + Saved(r[..0]) == existing
    ensures r[0].Success? && r[0].filename == name ==> existing + Saved(r[..1]) == existing + {name}
  {
    assert r[..0] == [];
    SavedCons(r[0], []);
    assert r[..1] == [r[0]] + [];
  }

  /** What the task after the first one sees is what it sees in the full run. */
  lemma SavedShift(existing: set<string>, o: Outcome, rest: seq<Outcome>, i: nat)
    requires 0 < i <= |rest| + 1
    ensures Taken(existing, o) + Saved(rest[..i - 1]) == existing + Saved(([o] + rest)[..i])
  {
    SavedCons(o, rest[..i - 1]);
    assert ([o] + rest)[..i] == [o] + rest[..i - 1];
  }

  lemma SavedCons(o: Outcome, outs: seq<Outcome>)
    ensures Saved([o] + outs) == (if o.Success? then {o.filename} else {}) + Saved(outs)
  {
    assert ([o] + outs)[1..] == outs;
  }

  /** No two tasks save under the same name, and none overwrites a file
      that was there before the run. */
  lemma {:induction false} ExecuteFresh(p: Policy, existing: set<string>, jobs: seq<Job>)
    requires Scripted(p.retries, jobs) && HasPool(p) && DirectoryNames(existing)
    ensures FreshNames(Execute(p, existing, jobs), existing)
    decreases |jobs|
  {
    if jobs != [] {
      var o := TaskOutcome(p, existing, jobs[0]);
      var saved := Taken(existing, o);
      ExecuteFresh(p, saved, jobs[1..]);
      FreshCons(o, Execute(p, saved, jobs[1..]), existing);
    }
  }

  /** A first outcome that does not reuse an existing name, followed by
      outcomes that are fresh against the names it leaves taken, is fresh. */
  lemma FreshCons(o: Outcome, rest: seq<Outcome>, existing: set<string>)
    requires o.Success? ==> o.filename !in existing
    requires FreshNames(rest, Taken(existing, o))
    ensures FreshNames([o] + rest, existing)
  {
    var r := [o] + rest;
    forall i | 0 < i < |r| && r[i].Success?
      ensures r[i].filename !in existing
    {
      assert r[i] == rest[i - 1];
    }
    forall i, j | 0 <= i < j < |r| && r[i].Success? && r[j].Success?
      ensures r[i].filename != r[j].filename
    {
      assert r[j] == rest[j - 1];
      if i > 0 {
        assert r[i] == rest[i - 1];
      }
    }
  }

  /** The settings every task of a run shares, once both size arguments
      have been read. */
  function RunPolicy(c: Config): (p: Policy)
    requires !ParseSize(c.minArg).NotInteger? && !ParseSize(c.maxArg).NotInteger?
    ensures HasPool(p) && p.retries == c.retries
  {
    Policy(ParseHeaders(c.headerItems), AllowedTypes(c.types),
      Bound(ParseSize(c.minArg)), Bound(ParseSize(c.maxArg)), c.retries, Agent(c))
  }

  /** `main`: headers and types are read first; both user-agent flags abort
      before the sizes are parsed; a size argument that is not a numeral
      raises; no URLs returns; fewer than one worker raises; otherwise every
      URL is downloaded with its own copy of the headers, and the outcomes
      are summarised in the order `order` reads them. */
  function Main(c: Config, existing: set<string>, jobs: seq<Job>, order: seq<nat>): (r: RunResult)
    requires Scripted(c.retries, jobs) && DirectoryNames(existing) && ReadOrder(order, |jobs|)
    ensures r == AgentConflict <==> c.desktop && c.mobile
    ensures r == BadSize <==>
      !(c.desktop && c.mobile) && (ParseSize(c.minArg).NotInteger? || ParseSize(c.maxArg).NotInteger?)
    ensures r == NoUrls <==>
      !(c.desktop && c.mobile) && !ParseSize(c.minArg).NotInteger? && !ParseSize(c.maxArg).NotInteger? && jobs == []
    ensures r == NoWorkers <==>
      !(c.desktop && c.mobile) && !ParseSize(c.minArg).NotInteger? && !ParseSize(c.maxArg).NotInteger? && jobs != []
      && c.threads < 1
    ensures r.Completed? ==> |r.ran| == |jobs| && |r.report| == |jobs|
    ensures r.Completed? ==> forall i :: 0 <= i < |jobs| ==> r.ran[i].url == jobs[i].task.url
    ensures r.Completed? ==> forall i :: 0 <= i < |r.report| ==> i < |order| && order[i] < |jobs| && r.report[i] == r.ran[order[i]]
  {
    if c.desktop && c.mobile then AgentConflict
    else if ParseSize(c.minArg).NotInteger? || ParseSize(c.maxArg).NotInteger? then BadSize
    else if jobs == [] then NoUrls
    else if c.threads < 1 then NoWorkers
    else
      var outs := Execute(RunPolicy(c), existing, jobs);
      ReadOrderBounds(order, |jobs|);
      var report := Pick(outs, order);
      Completed(outs, report, Aggregate(report))
  }

  /** A completed run files every outcome in the order it is read, counts
      each qualifying outcome once whatever that order, adds up exactly
      their sizes, and saves every file under a name of its own. */
  lemma CompletedTotals(c: Config, existing: set<string>, jobs: seq<Job>, order: seq<nat>)
    requires Scripted(c.retries, jobs) && DirectoryNames(existing) && ReadOrder(order, |jobs|)
    ensures var r := Main(c, existing, jobs, order);
      r.Completed? ==>
        && multiset(r.report) == multiset(r.ran)
        && r.summary.successes == Filed(r.report, Successes)
        && r.summary.skips == Filed(r.report, Skips)
        && r.summary.failures == Filed(r.report, Failures)
        && r.summary.count == Downloaded(r.ran) && r.summary.bytes == ByteTotal(r.ran)
        && r.summary.count <= |jobs|
        && FreshNames(r.ran, existing)
  {
    var r := Main(c, existing, jobs, order);
    if r.Completed? {
      var p := RunPolicy(c);
      assert r.ran == Execute(p, existing, jobs);
      ReadOrderBounds(order, |jobs|);
      assert r.report == Pick(r.ran, order);
      ExecuteFresh(p, existing, jobs);
      PickPermutes(r.ran, order);
      ReadOrderTotals(r.ran, order);
      AggregateIsFilter(r.report);
      DownloadedAtMost(r.ran);
    }
  }

  /** Every header map a task of the run sends is the parsed `-H` map with
      at most `User-Agent` changed: to one of the desktop agents under
      `--random-useragent`, to one of the mobile agents under
      `--mobile-useragent` alone, and not at all without either flag. */
  lemma RunAgents(c: Config, job: Job, existing: set<string>)
    requires !ParseSize(c.minArg).NotInteger? && !ParseSize(c.maxArg).NotInteger?
    requires c.retries <= |job.script| && c.retries <= |job.picks|
    ensures var sent := DownloadFile(RunPolicy(c), job.task, existing, job.script, job.picks).sent;
      forall i :: 0 <= i < |sent| ==>
        && (forall k :: k != UserAgent ==> (k in sent[i] <==> k in ParseHeaders(c.headerItems)))
        && (forall k :: k in sent[i] && k != UserAgent ==> sent[i][k] == ParseHeaders(c.headerItems)[k])
        && (c.desktop ==> UserAgent in sent[i] && sent[i][UserAgent] in DesktopAgents)
        && (!c.desktop && c.mobile ==> UserAgent in sent[i] && sent[i][UserAgent] in MobileAgents)
        && (!c.desktop && !c.mobile ==> sent[i] == ParseHeaders(c.headerItems))
  {
    var p := RunPolicy(c);
    DownloadHeaders(p, job.task, existing, job.script, job.picks);
  }

  lemma {:induction false} DownloadedAtMost(outs: seq<Outcome>)
    ensures Downloaded(outs) <= |outs|
    decreases |outs|
  {
    if outs != [] {
      DownloadedAtMost(outs[1..]);
    }
  }
}

=== FILE: sizes.dfy ===
/** `parse_size`: the `--min-size` / `--max-size` arguments, such as
    `10KB` or `5mb`, read as a byte count. */
module Sizes {
  import opened Wrappers
  import opened Text
  import opened Numerals

  /** What `parse_size` yields: `None`, a byte count, or, for text that is
      not an integer numeral with an optional unit, no count: the model
      reads no size (for a word, `float()` raises). */
  datatype SizeArg = NoSize | Bytes(n: int) | NotInteger

  /** The unit suffixes `parse_size` recognises; `B` stands for none. */
  datatype Unit = B | KB | MB | GB

  function Multiplier(u: Unit): nat {
    match u
    case B => 1
    case KB => 1024
    case MB => 1024 * 1024
    case GB => 1024 * 1024 * 1024
  }

  function Suffix(u: Unit): string {
    match u
    case B => ""
    case KB => "KB"
    case MB => "MB"
    case GB => "GB"
  }

  predicate EndsWith(s: string, suffix: string) {
    |suffix| <= |s| && s[|s| - |suffix|..] == suffix
  }

  /** The unit an upper-cased, stripped argument ends in. */
  function UnitOf(t: string): Unit {
    if EndsWith(t, "KB") then KB
    else if EndsWith(t, "MB") then MB
    else if EndsWith(t, "GB") then GB
    else B
  }

  /** `parse_size`: an absent or empty argument is no bound; otherwise the
      argument is stripped and upper-cased, a `KB`, `MB` or `GB` suffix
      scales the numeral in front of it by 1024, 1024^2 or 1024^3, and a
      bare numeral is a byte count. Only an absent or empty argument gives
      no bound: a blank one is not a numeral. */
  function ParseSize(arg: Option<string>): (r: SizeArg)
    ensures r == NoSize <==> arg.None? || arg.value == ""
  {
    if arg.None? || arg.value == "" then NoSize
    else ReadSize(Upper(Strip(arg.value)))
  }

  /** The text in front of the unit suffix, which `float()` reads. */
  function Mantissa(t: string): string {
    t[..|t| - |Suffix(UnitOf(t))|]
  }

  /** The numeral in front of the unit suffix, scaled by the unit. */
  function ReadSize(t: string): (r: SizeArg)
    ensures r != NoSize
  {
    match ParseInteger(Mantissa(t))
    case Some(v) => Bytes(v * Multiplier(UnitOf(t)))
    case None => NotInteger
  }

  /** The unit suffix may be written in either case. */
  function SuffixIn(u: Unit, lower: bool): string {
    if lower then Lower(Suffix(u)) else Suffix(u)
  }

  /** Upper-casing a digit string followed by a suffix upper-cases the suffix only. */
  lemma UpperRendered(d: string, u: Unit, lower: bool)
    requires AllDigits(d)
    ensures Upper(d + SuffixIn(u, lower)) == d + Suffix(u)
  {
    var s := d + SuffixIn(u, lower);
    var t := Upper(s);
    forall i | 0 <= i < |t|
      ensures t[i] == (d + Suffix(u))[i]
    {
      if i < |d| {
        assert s[i] == d[i];
      }
    }
  }

  /** The unit of a digit string followed by a suffix is that suffix's unit. */
  lemma UnitOfRendered(d: string, u: Unit)
    requires |d| >= 1 && AllDigits(d)
    ensures UnitOf(d + Suffix(u)) == u
    ensures (d + Suffix(u))[..|d + Suffix(u)| - |Suffix(u)|] == d
  {
    var t := d + Suffix(u);
    if u == B {
      assert t == d;
      assert IsDigit(t[|t| - 1]);
    } else {
      assert t[|t| - 2..] == Suffix(u);
    }
  }

  lemma ReadRendered(n: nat, u: Unit)
    ensures ReadSize(Show(n) + Suffix(u)) == Bytes(n * Multiplier(u))
  {
    UnitOfRendered(Show(n), u);
    ParseShow(n);
  }

  /** `parse_size` reads back a rendered count followed by a unit suffix,
      upper- or lower-case, as that count times the unit's multiplier. */
  lemma ParseSizeRendered(n: nat, u: Unit, lower: bool)
    ensures ParseSize(Some(Show(n) + SuffixIn(u, lower))) == Bytes(n * Multiplier(u))
  {
    var d := Show(n);
    var s := d + SuffixIn(u, lower);
    assert s[|s| - 1] == if u == B then d[|d| - 1] else SuffixIn(u, lower)[1];
    assert Trimmed(s);
    StripTrimmed(s);
    UpperRendered(d, u, lower);
    ReadRendered(n, u);
  }

  /** A non-empty argument is a size exactly when, once stripped,
      upper-cased and cut before its unit, the text left (with the
      whitespace `float()` skips dropped) is a numeral; otherwise the model
      reads no size. */
  lemma ParseSizeAccepts(s: string)
    requires s != ""
    ensures ParseSize(Some(s)).Bytes? <==> IsNumeral(FloatTrim(Mantissa(Upper(Strip(s)))))
    ensures ParseSize(Some(s)) == NotInteger <==> !IsNumeral(FloatTrim(Mantissa(Upper(Strip(s)))))
  {
    ParseNumeralAccepts(FloatTrim(Mantissa(Upper(Strip(s)))));
  }

  /** A non-digit anywhere after the first character of the numeral, as in
      a word such as `ten`, makes the argument no size. */
  lemma ParseSizeRejectsNonDigit(s: string, i: nat)
    requires s != ""
    requires 0 < i < |FloatTrim(Mantissa(Upper(Strip(s))))|
    requires !IsDigit(FloatTrim(Mantissa(Upper(Strip(s))))[i])
    ensures ParseSize(Some(s)) == NotInteger
  {
    ParseSizeAccepts(s);
  }

  /** A unit written in any mix of cases is two characters, neither of
      them whitespace. */
  lemma UnitSpelling(x: string, u: Unit)
    requires u != B && Upper(x) == Suffix(u)
    ensures |x| == 2 && !IsSpace(x[0]) && !IsSpace(x[1])
  {
    assert UpperChar(x[0]) == Suffix(u)[0];
    assert UpperChar(x[1]) == 'B';
  }

  /** A unit, in any mix of cases and with any whitespace around it, needs
      a numeral in front of it. */
  lemma ParseSizeRejectsBareUnit(w1: string, x: string, u: Unit, w2: string)
    requires u != B && AllSpace(w1) && AllSpace(w2) && Upper(x) == Suffix(u)
    ensures ParseSize(Some(w1 + x + w2)) == NotInteger
  {
    UnitSpelling(x, u);
    assert Trimmed(x);
    StripPadded(w1, x, w2);
    BareUnitRead(u);
  }

  /** `SuffixIn` spells each unit so that upper-casing gives it back. */
  lemma UpperSuffix(u: Unit, lower: bool)
    ensures Upper(SuffixIn(u, lower)) == Suffix(u)
  {
    UpperRendered("", u, lower);
    assert "" + SuffixIn(u, lower) == SuffixIn(u, lower);
    assert "" + Suffix(u) == Suffix(u);
  }

  /** Text ending in a unit suffix has that unit, and its mantissa is the
      text before the suffix. */
  lemma UnitOfSuffixed(x: string, u: Unit)
    requires u != B
    ensures UnitOf(x + Suffix(u)) == u && Mantissa(x + Suffix(u)) == x
  {
    var t := x + Suffix(u);
    assert t[|t| - 2..] == Suffix(u);
    assert t[|t| - 2] == Suffix(u)[0];
    match u
    case KB =>
      assert EndsWith(t, "KB");
    case MB =>
      assert t[|t| - 2] == 'M';
      assert !EndsWith(t, "KB");
      assert EndsWith(t, "MB");
    case GB =>
      assert t[|t| - 2] == 'G';
      assert !EndsWith(t, "KB");
      assert !EndsWith(t, "MB");
      assert EndsWith(t, "GB");
    assert t[..|t| - 2] == x;
  }

  /** Text ending in a digit has no unit and is its own mantissa. */
  lemma UnitOfDigitEnd(x: string)
    requires |x| >= 1 && IsDigit(x[|x| - 1])
    ensures UnitOf(x) == B && Mantissa(x) == x
  {
    assert x[|x| - 1] != 'B';
    assert !EndsWith(x, "KB") && !EndsWith(x, "MB") && !EndsWith(x, "GB");
    assert x[..|x|] == x;
  }

  lemma BareUnitRead(u: Unit)
    requires u != B
    ensures ReadSize(Suffix(u)) == NotInteger
  {
    UnitOfSuffixed("", u);
    assert "" + Suffix(u) == Suffix(u);
    assert FloatTrim("") == "";
    assert ParseNumeral("") == None;
  }

  /** An integer numeral is read as its value times the unit's multiplier
      when whitespace surrounds it, the whitespace `float()` skips separates
      it from the unit, and the unit (or none) is written in any mix of
      cases, as `Kb` or `kB`. */
  lemma ParseSizeValue(w1: string, d: string, w2: string, x: string, u: Unit, w3: string)
    requires AllSpace(w1) && AllFloatSpace(w2) && AllSpace(w3) && IsNumeral(d)
    requires Upper(x) == Suffix(u)
    ensures ParseNumeral(d).Some?
    ensures ParseSize(Some(w1 + d + w2 + x + w3)) == Bytes(ParseNumeral(d).value * Multiplier(u))
  {
    ParseNumeralAccepts(d);
    if u == B {
      BareValue(w1, d, w2, x, w3);
    } else {
      UnitValue(w1, d, w2, x, u, w3);
    }
  }

  lemma BareValue(w1: string, d: string, w2: string, x: string, w3: string)
    requires AllSpace(w1) && AllFloatSpace(w2) && AllSpace(w3) && IsNumeral(d)
    requires Upper(x) == "" && ParseNumeral(d).Some?
    ensures ParseSize(Some(w1 + d + w2 + x + w3)) == Bytes(ParseNumeral(d).value)
  {
    assert x == "";
    assert w1 + d + w2 + x + w3 == w1 + d + (w2 + w3);
    NumeralShape(d);
    FloatSpaceIsSpace(w2);
    SpaceAppend(w2, w3);
    StripPadded(w1, d, w2 + w3);
    UpperKeeps(d);
    UnitOfDigitEnd(d);
    ParseTrimmed(d);
  }

  lemma UnitValue(w1: string, d: string, w2: string, x: string, u: Unit, w3: string)
    requires u != B && AllSpace(w1) && AllFloatSpace(w2) && AllSpace(w3) && IsNumeral(d)
    requires Upper(x) == Suffix(u) && ParseNumeral(d).Some?
    ensures ParseSize(Some(w1 + d + w2 + x + w3)) == Bytes(ParseNumeral(d).value * Multiplier(u))
  {
    var t := d + w2 + x;
    assert w1 + d + w2 + x + w3 == w1 + t + w3;
    FloatSpaceIsSpace(w2);
    SuffixedTrimmed(d, w2, x, u);
    StripPadded(w1, t, w3);
    UpperSuffixed(d, w2, x, u);
    UnitOfSuffixed(d + w2, u);
    ParsePadded(d, w2);
  }

  lemma SuffixedTrimmed(d: string, w: string, x: string, u: Unit)
    requires u != B && IsNumeral(d) && Upper(x) == Suffix(u)
    ensures Trimmed(d + w + x)
  {
    UnitSpelling(x, u);
    var t := d + w + x;
    assert t[0] == d[0] && t[|t| - 1] == x[1];
  }

  lemma UpperSuffixed(d: string, w: string, x: string, u: Unit)
    requires IsNumeral(d) && AllSpace(w) && Upper(x) == Suffix(u)
    ensures Upper(d + w + x) == d + w + Suffix(u)
  {
    UpperAppend(d + w, x);
    UpperAppend(d, w);
    NumeralShape(d);
    UpperKeeps(d);
    SpaceNoLower(w);
    UpperKeeps(w);
  }

  /** One of the separators U+001C to U+001F between the numeral and its
      unit is whitespace to `str.strip()` but not to `float()`: the
      argument is no size. */
  lemma ParseSizeRejectsSeparator(d: string, c: char, x: string, u: Unit)
    requires IsNumeral(d) && '\U{1C}' <= c <= '\U{1F}'
    requires u != B && Upper(x) == Suffix(u)
    ensures ParseSize(Some(d + [c] + x)) == NotInteger
  {
    var m := d + [c];
    ParseSeparatorRejected(d, c);
    assert AllSpace([c]);
    SuffixedTrimmed(d, [c], x, u);
    StripTrimmed(m + x);
    UpperSuffixed(d, [c], x, u);
    UnitOfSuffixed(m, u);
  }

  /** A blank argument is not an absent one: whatever its whitespace, it is
      refused, not read as no bound. */
  lemma ParseSizeRejectsBlank(s: string)
    requires s != "" && AllSpace(s)
    ensures ParseSize(Some(s)) == NotInteger
  {
    StripPadded(s, "", "");
    assert s + "" + "" == s;
    assert Upper("") == "";
  }
}

=== FILE: text.dfy ===
/** The string primitives of Python that the downloader leans on:
    `str.strip()`, ASCII `lower()`/`upper()`, `find`/`rfind` of one
    character, and `split` on one separator character. */
module Text {

  /** The code points for which Python's `str.isspace()` holds, which are
      the characters `str.strip()` with no argument removes. */
  predicate IsSpace(c: char) {
    var n := c as int;
    || n == 0x20 || 0x09 <= n <= 0x0D || 0x1C <= n <= 0x1F
    || n == 0x85 || n == 0xA0 || n == 0x1680 || 0x2000 <= n <= 0x200A
    || n == 0x2028 || n == 0x2029 || n == 0x202F || n == 0x205F || n == 0x3000
  }

  /** True when `s` neither starts nor ends with whitespace. */
  predicate Trimmed(s: string) {
    s == [] || (!IsSpace(s[0]) && !IsSpace(s[|s| - 1]))
  }

  predicate AllSpace(s: string) {
    forall k :: 0 <= k < |s| ==> IsSpace(s[k])
  }

  /** `t` occurs in `s` at index `i` with only whitespace before and after it. */
  predicate PaddedAt(t: string, s: string, i: int) {
    && 0 <= i <= i + |t| <= |s| && t == s[i..i + |t|]
    && AllSpace(s[..i]) && AllSpace(s[i + |t|..])
  }

  /** `s.lstrip()`: drops leading whitespace. */
  function StripLeft(s: string): string {
    if |s| > 0 && IsSpace(s[0]) then StripLeft(s[1..]) else s
  }

  /** `s.rstrip()`: drops trailing whitespace. */
  function StripRight(s: string): string {
    if |s| > 0 && IsSpace(s[|s| - 1]) then StripRight(s[..|s| - 1]) else s
  }

  /** `s.strip()`. */
  function Strip(s: string): string {
    StripRight(StripLeft(s))
  }

  /** `lstrip` leaves the suffix that follows the leading whitespace. */
  lemma {:induction false} StripLeftSpec(s: string)
    ensures var r := StripLeft(s);
      && |r| <= |s| && r == s[|s| - |r|..]
      && AllSpace(s[..|s| - |r|])
      && (r == [] || !IsSpace(r[0]))
  {
    if |s| > 0 && IsSpace(s[0]) {
      StripLeftSpec(s[1..]);
      var r := StripLeft(s);
      assert s[..|s| - |r|] == [s[0]] + s[1..][..|s| - 1 - |r|];
    }
  }

  /** `rstrip` leaves the prefix that precedes the trailing whitespace. */
  lemma {:induction false} StripRightSpec(s: string)
    ensures var r := StripRight(s);
      && |r| <= |s| && r == s[..|r|]
      && AllSpace(s[|r|..])
      && (r == [] || !IsSpace(r[|r| - 1]))
  {
    if |s| > 0 && IsSpace(s[|s| - 1]) {
      StripRightSpec(s[..|s| - 1]);
      var r := StripRight(s);
      assert s[|r|..] == s[..|s| - 1][|r|..] + [s[|s| - 1]];
    }
  }

  /** `strip` leaves the infix of `s` that has only whitespace around it and
      neither starts nor ends with whitespace. */
  lemma StripSpec(s: string)
    ensures Trimmed(Strip(s))
    ensures exists i :: PaddedAt(Strip(s), s, i)
  {
    var l := StripLeft(s);
    var r := StripRight(l);
    StripLeftSpec(s);
    StripRightSpec(l);
    var a := |s| - |l|;
    assert l == s[a..];
    assert r == l[..|r|] == s[a..][..|r|];
    assert s[a..][..|r|] == s[a..a + |r|];
    assert s[a + |r|..] == l[|r|..];
    assert PaddedAt(r, s, a);
  }

  /** Stripping text that already has no surrounding whitespace changes nothing. */
  lemma StripTrimmed(s: string)
    requires Trimmed(s)
    ensures Strip(s) == s
  {
  }

  /** `lstrip` passes over leading whitespace to what follows it. */
  lemma {:induction false} StripLeftSkips(w: string, x: string)
    requires AllSpace(w)
    ensures StripLeft(w + x) == StripLeft(x)
    decreases |w|
  {
    if |w| > 0 {
      assert (w + x)[0] == w[0];
      assert (w + x)[1..] == w[1..] + x;
      var v := w[1..];
      assert AllSpace(v) by {
        forall k | 0 <= k < |v|
          ensures IsSpace(v[k])
        {
          assert v[k] == w[k + 1];
        }
      }
      StripLeftSkips(w[1..], x);
    } else {
      assert w + x == x;
    }
  }

  /** `rstrip` passes over trailing whitespace to what precedes it. */
  lemma {:induction false} StripRightSkips(x: string, w: string)
    requires AllSpace(w)
    ensures StripRight(x + w) == StripRight(x)
    decreases |w|
  {
    if |w| > 0 {
      var s := x + w;
      assert s[|s| - 1] == w[|w| - 1];
      var v := w[..|w| - 1];
      assert s[..|s| - 1] == x + v;
      assert AllSpace(v) by {
        forall k | 0 <= k < |v|
          ensures IsSpace(v[k])
        {
          assert v[k] == w[k];
        }
      }
      StripRightSkips(x, v);
    } else {
      assert x + w == x;
    }
  }

  lemma SpaceAppend(a: string, b: string)
    requires AllSpace(a) && AllSpace(b)
    ensures AllSpace(a + b)
  {
  }

  /** `strip` of text padded with whitespace on both sides is the text;
      in particular a string of whitespace alone strips to `""`. */
  lemma StripPadded(w1: string, t: string, w2: string)
    requires AllSpace(w1) && AllSpace(w2) && Trimmed(t)
    ensures Strip(w1 + t + w2) == t
  {
    if t == [] {
      assert w1 + t + w2 == w1 + w2;
      StripLeftSkips(w1, w2);
      StripLeftSkips(w2, []);
      assert w2 + [] == w2;
    } else {
      assert w1 + t + w2 == w1 + (t + w2);
      StripLeftSkips(w1, t + w2);
      assert (t + w2)[0] == t[0];
      StripRightSkips(t, w2);
    }
  }

  function LowerChar(c: char): char {
    if 'A' <= c <= 'Z' then (c as int + 32) as char else c
  }

  function UpperChar(c: char): char {
    if 'a' <= c <= 'z' then (c as int - 32) as char else c
  }

  /** No character `upper()` changes. */
  predicate NoLowerLetters(s: string) {
    forall k :: 0 <= k < |s| ==> !('a' <= s[k] <= 'z')
  }

  /** Whitespace has no letters. */
  lemma SpaceNoLower(w: string)
    requires AllSpace(w)
    ensures NoLowerLetters(w)
  {
    forall k | 0 <= k < |w|
      ensures !('a' <= w[k] <= 'z')
    {
      assert IsSpace(w[k]);
    }
  }

  /** `s.lower()`, restricted to ASCII letters. */
  function Lower(s: string): (r: string)
    ensures |r| == |s|
    ensures forall i :: 0 <= i < |s| ==> r[i] == LowerChar(s[i])
  {
    seq(|s|, i requires 0 <= i < |s| => LowerChar(s[i]))
  }

  /** `s.upper()`, restricted to ASCII letters. */
  function Upper(s: string): (r: string)
    ensures |r| == |s|
    ensures forall i :: 0 <= i < |s| ==> r[i] == UpperChar(s[i])
  {
    seq(|s|, i requires 0 <= i < |s| => UpperChar(s[i]))
  }

  /** `upper()` leaves text without lower-case letters as it is. */
  lemma UpperKeeps(s: string)
    requires NoLowerLetters(s)
    ensures Upper(s) == s
  {
  }

  /** `upper()` works character by character. */
  lemma UpperAppend(a: string, b: string)
    ensures Upper(a + b) == Upper(a) + Upper(b)
  {
  }

  /** `s.find(c)`: the first index of `c`, or -1. */
  function Find(s: string, c: char): (r: int)
    ensures -1 <= r < |s|
    ensures r == -1 <==> c !in s
    ensures r >= 0 ==> s[r] == c && c !in s[..r]
  {
    if |s| == 0 then -1
    else if s[0] == c then 0
    else
      var k := Find(s[1..], c);
      assert s == [s[0]] + s[1..];
      if k == -1 then -1 else
        assert s[..k + 1] == [s[0]] + s[1..][..k];
        k + 1
  }

  /** An occurrence of `c` with none before it is what `Find` returns. */
  lemma {:induction false} FindAt(s: string, c: char, i: nat)
    requires i < |s| && s[i] == c && c !in s[..i]
    ensures Find(s, c) == i
    decreases i
  {
    if i > 0 {
      assert s[..i][0] == s[0];
      assert s[1..][..i - 1] == s[..i][1..];
      FindAt(s[1..], c, i - 1);
    }
  }

  /** `s.rfind(c)`: the last index of `c`, or -1. */
  function RFind(s: string, c: char): (r: int)
    ensures -1 <= r < |s|
    ensures r == -1 <==> c !in s
    ensures r >= 0 ==> s[r] == c && c !in s[r + 1..]
  {
    if |s| == 0 then -1
    else if s[|s| - 1] == c then |s| - 1
    else
      var k := RFind(s[..|s| - 1], c);
      assert s == s[..|s| - 1] + [s[|s| - 1]];
      if k == -1 then -1 else
        assert s[k + 1..] == s[..|s| - 1][k + 1..] + [s[|s| - 1]];
        k
  }

  /** Glues pieces back together with `sep` between neighbours: Python's
      `sep.join(pieces)`. */
  function Join(pieces: seq<string>, sep: char): string
    decreases |pieces|
  {
    if |pieces| == 0 then []
    else if |pieces| == 1 then pieces[0]
    else pieces[0] + [sep] + Join(pieces[1..], sep)
  }

  /** `s.split(sep)` with a one-character separator: never empty, no piece
      holds the separator, and joining the pieces gives `s` back. */
  function Split(s: string, sep: char): (r: seq<string>)
    ensures |r| >= 1
    ensures forall k :: 0 <= k < |r| ==> sep !in r[k]
    ensures Join(r, sep) == s
    decreases |s|
  {
    var i := Find(s, sep);
    if i == -1 then [s]
    else
      var rest := Split(s[i + 1..], sep);
      var r := [s[..i]] + rest;
      assert r[1..] == rest;
      assert Join(r, sep) == s[..i] + [sep] + s[i + 1..];
      assert s == s[..i] + [sep] + s[i + 1..];
      r
  }

  /** Splitting undoes joining when no piece contains the separator. */
  lemma {:induction false} SplitJoin(pieces: seq<string>, sep: char)
    requires |pieces| >= 1
    requires forall k :: 0 <= k < |pieces| ==> sep !in pieces[k]
    ensures Split(Join(pieces, sep), sep) == pieces
    decreases |pieces|
  {
    if |pieces| == 1 {
      assert Join(pieces, sep) == pieces[0];
    } else {
      var s := Join(pieces, sep);
      var head := pieces[0];
      assert s == head + [sep] + Join(pieces[1..], sep);
      assert s[|head|] == sep;
      assert s[..|head|] == head;
      FindAt(s, sep, |head|);
      var tail := s[|head| + 1..];
      assert tail == Join(pieces[1..], sep);
      SplitJoin(pieces[1..], sep);
      assert Split(s, sep) == [head] + Split(tail, sep);
      assert pieces == [head] + pieces[1..];
    }
  }
}

=== FILE: wrappers.dfy ===
/** Small shared datatypes. */
module Wrappers {

  /** Python's `None` or a present value. */
  datatype Option<+T> = None | Some(value: T)
}
